=== FILE: README.md ===
# Temporal scalar functions of the databend query engine, modelled in Dafny

This project models the Date and Timestamp scalar functions that databend
registers in `src/query/functions/src/scalars/datetime.rs`.

- A Date is an `i32` count of days since 1970-01-01.
- A Timestamp is an `i64` count of microseconds since 1970-01-01 00:00:00 UTC.

The valid ranges run from 1000-01-01 to 9999-12-31 (`IsDate`, `IsTimestamp`). Not every function stays inside them:

- These clamp their results into the range: `to_date(Int64)`, the `Date`/`Timestamp ± Int64` evaluators, and the microsecond branch of `to_timestamp(Int64)`.
- These do not: the seconds and milliseconds branches of `to_timestamp(Int64)`, and the text-to-Date parses (`to_date(String)` and `to_date(String, format)`). Those parses push the parsed day count as it is, so a year before 1000 or after 9999 gives a Date outside the range.

The functions that consume Dates and Timestamps are therefore modelled on any `i32`/`i64` value, not only on valid ones.

The model covers the following parts of that file:

- **Casts into Date and Timestamp** (`number_casts.dfy`): reading an Int64 as seconds, milliseconds or microseconds by its magnitude, `to_date(Int64)` and `to_timestamp(Date)`, with the domain rules the optimizer uses to bound each function's output.
- **Arithmetic on dates and timestamps** (`plus_minus.dfy`): saturating `Date`/`Timestamp ± Int64`, `Date − Date` and `Timestamp − Timestamp`, and their domain rules.
- **The add/subtract family** (`arith_family.dfy`): the `add_<unit>s` / `subtract_<unit>s` functions produced by one generator for eight units and two operand types.
- **`convert_timezone`** (`convert_timezone.dfy`).
- **Text to Timestamp and Date** (`string_parse.dfy`): `to_timestamp(String)` and `to_date(String)`, including how the lenient parser resolves a local time that falls in a skipped or a repeated hour.
- **Text with a format** (`format_parse.dfy`): `to_timestamp(String, format)` and `to_date(String, format)`, via `string_to_format_timestamp`. This covers the empty-format rule, time-zone directive detection and the in-place epoch backfill of a chrono `Parsed`.
- **Small functions** (`calendar_misc.dfy`): the argument order of `diff_<unit>s`, `yesterday`/`tomorrow`, and the mode dispatch of `to_start_of_week`.
- **Per-row output discipline** (`vectorize.dfy`), shared by every function above. Every row closure either pushes one value, or records an error at index `output.len()` and pushes one placeholder (`0`, or null). The `try_` forms turn an error into null and record nothing. The discipline is modelled three ways:
  - `Run`, a left fold over the rows;
  - `Vectorize`, a loop over an output `Builder` and an `ErrorSink`, proved equal to `Run`;
  - `RunOnePerRow`, which proves that row `i` leaves exactly its own cell at index `i` and its error (if any) under key `i`.

Rust's `i32`/`i64` values are unbounded integers in the model, constrained by `InI32`/`InI64`. Where the source relies on unchecked arithmetic, the two's-complement wrap-around is written out (`Bounds.WrapI64`, `Bounds.WrapI32`). This covers the four `± Int64` evaluators, `Date − Date`, `Timestamp − Timestamp` and `calc_date_to_timestamp`; the domain rules and the delta scaling of the add/subtract family are computed exactly (see "Left out").

Several things are inputs to the model because their code is not part of it. Each row of a function carries what they return:

- the time-zone database (chrono-tz);
- the text parsers (dtparse, chrono's `parse_from_str` and `parse_and_remainder`, the strict parsers of the expression crate);
- the calendar evaluators of `date_helper` (`EvalYearsImpl`, `EvalMonthsImpl`, `EvalDaysImpl`, `EvalTimesImpl`, `DateRounder`, `unwrap_local_time`, `today_date`).

## Model

| member | source | states |
|---|---|---|
| Vectorize.Step | src/query/functions/src/scalars/datetime.rs:226-231 | a failing row records its message at the current output length and appends its placeholder; a succeeding row appends only its value; the silent path changes nothing |
| Vectorize.ApplyRow | src/query/functions/src/scalars/datetime.rs:226-231 | pushing to the builder and calling `set_error(output.len(), …)` leaves exactly the state `Step` describes |
| Vectorize.Vectorize | src/query/functions/src/scalars/datetime.rs:220-312 | the row loop over a builder and an error sink leaves the column and the error map of the fold `Run` |
| Vectorize.RunOnePerRow | src/query/functions/src/scalars/datetime.rs:220-312 | when no row is silent, the column has one cell per row, row `i` is evaluated at output length `i` and leaves its own cell at index `i`, an error is recorded at `i` exactly when row `i` fails, with that row's message, and at no other index |
| Vectorize.ErrorToNull | src/query/functions/src/scalars/datetime.rs:210-214 | `error_to_null`: a failure becomes a null value, every other outcome is kept |
| Vectorize.TryRunRecordsNothing | src/query/functions/src/scalars/datetime.rs:210-214 | a `try_` column records no error, has one cell per row, is null exactly where the plain form failed or produced null, and keeps every value the plain form produced |
| Bounds.Clamp | src/query/functions/src/scalars/datetime.rs:1655-1657 | the saturating clamp the evaluators apply: the result is in range, is the input when that is in range, and is the nearer end otherwise |
| Bounds.ClampDate | src/query/functions/src/scalars/datetime.rs:680-684 | `to_date(Int64)` always yields a valid Date, hence an `i32` |
| Bounds.ClampTimestamp | src/query/functions/src/scalars/datetime.rs:126-128 | `clamp_timestamp` always yields a valid Timestamp, hence an `i64` |
| Bounds.WrapI64 | src/query/functions/src/scalars/datetime.rs:1678 | unchecked `i64` addition: the result fits `i64`, differs from the exact value by a multiple of 2⁶⁴, and is exact when that fits |
| NumberCasts.Region | src/query/functions/src/scalars/datetime.rs:121-128 | the magnitude classes of the cast: region 0 is exactly the open seconds interval |
| NumberCasts.Int64ToTimestamp | src/query/functions/src/scalars/datetime.rs:120-129 | the cast never overflows `i64`, and keeps the sign and zero |
| NumberCasts.Int64ToTimestampMonotoneInRegion | src/query/functions/src/scalars/datetime.rs:120-129 | within one magnitude class the cast preserves order |
| NumberCasts.Int64ToTimestampBelowMin | src/query/functions/src/scalars/datetime.rs:121-122 | -31 535 999 999 seconds gives a timestamp below the Timestamp minimum (unclamped seconds branch) |
| NumberCasts.Int64ToTimestampClamped | src/query/functions/src/scalars/datetime.rs:120-129 | the cast with its result clamped is always a valid Timestamp, agrees with the cast wherever that is in range, and keeps the sign |
| NumberCasts.Int64ToTimestampClampedMonotoneInRegion | src/query/functions/src/scalars/datetime.rs:120-129 | the clamped cast preserves order within a magnitude class |
| NumberCasts.Int64DomainToTimestampDomain | src/query/functions/src/scalars/datetime.rs:131-138 | the lift always claims a domain, and the claimed minimum is negative exactly when the input minimum is |
| NumberCasts.Int64DomainToTimestampDomainUnsound | src/query/functions/src/scalars/datetime.rs:131-138 | for the input domain [31 535 999 999, 31 536 000 000], the cast of its minimum lies outside the lifted domain |
| NumberCasts.Int64DomainToTimestampDomainChecked | src/query/functions/src/scalars/datetime.rs:131-138 | a lift that claims a domain exactly when both ends fall in one magnitude class, with both ends valid Timestamps |
| NumberCasts.NumberToTimestampDomainAsWritten | src/query/functions/src/scalars/datetime.rs:542-549 | the rule of `to_timestamp(Int64)` as written always claims a domain, whose minimum is negative exactly when the input minimum is |
| NumberCasts.NumberToTimestampDomainAsWrittenUnsound | src/query/functions/src/scalars/datetime.rs:542-549 | for the input domain [31 535 999 999, 31 536 000 000] the claimed domain excludes the value the evaluator pushes for its minimum |
| NumberCasts.NumberToTimestampDomain | src/query/functions/src/scalars/datetime.rs:542-549 | the corrected rule: a domain exactly when both ends share a magnitude class, `MayThrow` otherwise, and the as-written rule whenever both ends cast into the Timestamp range |
| NumberCasts.NumberToTimestampDomainSound | src/query/functions/src/scalars/datetime.rs:542-549 | for the corrected rule, every input in the argument domain is cast into the claimed domain |
| NumberCasts.OverflowCastToDate | src/query/functions/src/scalars/datetime.rs:659 | both ends are clamped into the Date range; the overflow flag is clear exactly when both were already valid, and then the domain is unchanged |
| NumberCasts.NumberToDateDomain | src/query/functions/src/scalars/datetime.rs:656-666 | the rule of `to_date(Int64)` is a domain exactly when both ends are valid Dates, and `MayThrow` otherwise |
| NumberCasts.NumberToDateDomainSound | src/query/functions/src/scalars/datetime.rs:655-684 | `clamp_date(v)` lies in the claimed domain of `to_date` and in the clamped domain of `try_to_date`, for every `v` in the argument domain |
| NumberCasts.DaysToMicros | src/query/functions/src/scalars/datetime.rs:525 | the midnight of any day chrono can represent (`FitsDayMicros`) fits `i64`, and dividing it by a day's microseconds gives the day back with no remainder |
| NumberCasts.DateToTimestamp | src/query/functions/src/scalars/datetime.rs:524-538 | `calc_date_to_timestamp` on any `i32` day count, clamped or not, is an `i64` congruent to midnight less the offset modulo 2⁶⁴; for every day chrono can represent it is exactly that, strictly within a day of the UTC midnight |
| NumberCasts.DateToTimestampStrictlyIncreasing | src/query/functions/src/scalars/datetime.rs:524-538 | for days chrono can represent, clamped or not, later dates give later timestamps, exactly one day of microseconds apart per day |
| NumberCasts.DateToTimestampDomain | src/query/functions/src/scalars/datetime.rs:490-496 | the rule of `to_timestamp(Date)` always claims the domain of the two ends' casts, for any `i32` ends; it is non-empty when the argument domain is and its ends are days chrono can represent |
| NumberCasts.DateToTimestampDomainSound | src/query/functions/src/scalars/datetime.rs:488-522 | every Date in an argument domain of days chrono can represent, clamped or not, converts into the claimed domain |
| PlusMinus.DatePlusAsWritten | src/query/functions/src/scalars/datetime.rs:1655-1657 | for any `i32` Date `a`, including an unclamped one, the unchecked `(a as i64) + b` clamped: a valid Date, equal to the clamped exact sum when the sum fits `i64` |
| PlusMinus.DateMinusAsWritten | src/query/functions/src/scalars/datetime.rs:1701-1703 | the same for `(a as i64) - b` |
| PlusMinus.TimestampPlusAsWritten | src/query/functions/src/scalars/datetime.rs:1676-1682 | the same for the Timestamp `a + b`, for any `i64` `a`, including one outside the Timestamp range |
| PlusMinus.TimestampMinusAsWritten | src/query/functions/src/scalars/datetime.rs:1722-1728 | the same for the Timestamp `a - b` |
| PlusMinus.EvaluatorsAsWrittenWrap | src/query/functions/src/scalars/datetime.rs:1655-1728 | adding `i64::MAX` to the last Date or Timestamp wraps to the first one, and subtracting it from the first wraps to the last |
| PlusMinus.DatePlus | src/query/functions/src/scalars/datetime.rs:1655-1657 | `Date + Int64` saturates for any `i32` `a`: a valid Date, the exact sum when that is valid, `DATE_MIN`/`DATE_MAX` below/above the range, and the as-written result whenever the sum fits `i64` |
| PlusMinus.DateMinus | src/query/functions/src/scalars/datetime.rs:1701-1703 | the same for `Date - Int64` |
| PlusMinus.TimestampPlus | src/query/functions/src/scalars/datetime.rs:1676-1682 | the same for `Timestamp + Int64` over the Timestamp range, for any `i64` `a` |
| PlusMinus.TimestampMinus | src/query/functions/src/scalars/datetime.rs:1722-1728 | the same for `Timestamp - Int64` |
| PlusMinus.MinusIsPlusNegated | src/query/functions/src/scalars/datetime.rs:1638-1730 | subtracting `b` equals adding `-b`, on any `i32` Date and any `i64` Timestamp |
| PlusMinus.PlusMonotone | src/query/functions/src/scalars/datetime.rs:1649-1650 | clamped addition preserves the order of its operands |
| PlusMinus.PlusDomain | src/query/functions/src/scalars/datetime.rs:1648-1651 | the "plus" rule's ends lie in the clamp range, and the domain is non-empty when both argument domains are |
| PlusMinus.PlusDomainSound | src/query/functions/src/scalars/datetime.rs:1641-1682 | every clamped sum of arguments from the argument domains lies in the "plus" domain |
| PlusMinus.MinusDomainAsWritten | src/query/functions/src/scalars/datetime.rs:1694-1697 | the "minus" rule as written, `[clamp(ln − rn), clamp(lm − rm)]`, with ends in the clamp range |
| PlusMinus.MinusDomainAsWrittenUnsound | src/query/functions/src/scalars/datetime.rs:1714-1718 | with lhs = [10, 10] and rhs = [0, 5] the rule claims [10, 5], which excludes 10 − 0 |
| PlusMinus.MinusDomain | src/query/functions/src/scalars/datetime.rs:1694-1697 | `[clamp(ln − rm), clamp(lm − rn)]` lies in the clamp range, is non-empty for non-empty arguments, and equals the as-written rule when rhs is a single value |
| PlusMinus.MinusDomainSound | src/query/functions/src/scalars/datetime.rs:1685-1728 | every clamped difference of arguments from the argument domains lies in the corrected "minus" domain |
| PlusMinus.MinusDates | src/query/functions/src/scalars/datetime.rs:1225-1242 | `Date − Date` on any two `i32` Dates is the `i32` congruent to `a − b` modulo 2³²; it is exact (adding the subtrahend back gives the minuend) whenever `a − b` fits `i32`, in particular for two valid Dates |
| PlusMinus.MinusTimestamps | src/query/functions/src/scalars/datetime.rs:1244-1261 | `Timestamp − Timestamp` on any two `i64` Timestamps is the `i64` congruent to `a − b` modulo 2⁶⁴; it is exact whenever `a − b` fits `i64`, in particular for two valid Timestamps |
| PlusMinus.DifferenceDomain | src/query/functions/src/scalars/datetime.rs:1227-1239 | the rule is a domain or `Full`, and it is `Full` exactly when `ln − rm` or `lm − rn` leaves the width |
| PlusMinus.DifferenceDomainSound | src/query/functions/src/scalars/datetime.rs:1225-1261 | every difference of arguments from the argument domains is admitted, and under a claimed domain it fits the result width |
| ArithFamily.SignedDelta | src/query/functions/src/scalars/datetime.rs:828-838 | `add` passes the delta unchanged and `subtract` passes its negation |
| ArithFamily.Fallible | src/query/functions/src/scalars/datetime.rs:847-855 | an evaluator value is pushed; an evaluator error is recorded with 0 pushed |
| ArithFamily.TimeBase | src/query/functions/src/scalars/datetime.rs:980-988 | a Timestamp is used as is, and a Date becomes the microseconds of its midnight |
| ArithFamily.ArithRow | src/query/functions/src/scalars/datetime.rs:840-1067 | no row is silent; only years, quarters and months can fail, and they push 0 when they do; every pushed value is a value, never null |
| ArithFamily.SubtractIsAddNegated | src/query/functions/src/scalars/datetime.rs:1069-1070 | `subtract_U(x, n)` equals `add_U(x, −n)` for all eight units |
| ArithFamily.QuartersAreThreeMonths | src/query/functions/src/scalars/datetime.rs:874-903 | `<op>_quarters(x, n)` equals `<op>_months(x, 3n)` |
| ArithFamily.WeeksAreSevenDays | src/query/functions/src/scalars/datetime.rs:955-974 | `<op>_weeks(x, n)` equals `<op>_days(x, 7n)` |
| ArithFamily.DateTimeUnitsUseMidnight | src/query/functions/src/scalars/datetime.rs:976-990 | on a Date, the hour, minute and second variants equal the Timestamp variants applied to that Date's midnight |
| ArithFamily.ArithColumnOnePerRow | src/query/functions/src/scalars/datetime.rs:847-855 | over a column, one cell per row, an error at row `i` exactly when that row's evaluator failed, and no errors at all for days, weeks, hours, minutes and seconds |
| ConvertTimezone.Masked | src/query/functions/src/scalars/datetime.rs:148-153 | without a validity bitmap no row is masked; with one covering the row, the row is masked exactly when its bit is clear |
| ConvertTimezone.ConvertTimezoneRow | src/query/functions/src/scalars/datetime.rs:145-189 | a masked row pushes 0 with no error; an unparsable zone records "cannot parse target `timezone`. …" and pushes 0; otherwise the row yields `src + (target − source offset)·10⁶` exactly when neither checked step overflows, and an error with 0 when one does |
| ConvertTimezone.ConvertSameOffsetIsIdentity | src/query/functions/src/scalars/datetime.rs:165-180 | converting into a zone with the same offset leaves the timestamp unchanged |
| ConvertTimezone.ConvertValidNeverOverflows | src/query/functions/src/scalars/datetime.rs:174-188 | with offsets under a day and a valid Timestamp, neither checked step fails |
| ConvertTimezone.ConvertRoundTrip | src/query/functions/src/scalars/datetime.rs:145-189 | converting from offset A to offset B and back returns the original timestamp |
| ConvertTimezone.ConvertColumn | src/query/functions/src/scalars/datetime.rs:145-189 | over a column with a validity bitmap of its length: one cell per row, masked rows hold 0 and record nothing, and an error sits at `i` exactly when row `i` failed |
| StringParse.Parsed | src/query/functions/src/scalars/datetime.rs:223-233 | a parser value is pushed; a parser error is recorded with its prefix and 0 pushed |
| StringParse.ResolveNamedZoneAsWritten | src/query/functions/src/scalars/datetime.rs:237-289 | the resolution as written is silent exactly when the hour is skipped, the fix is on, and adding an hour overflows |
| StringParse.ResolveNamedZone | src/query/functions/src/scalars/datetime.rs:237-289 | the corrected resolution is never silent, pushes 0 on failure, and agrees with the as-written one wherever that is not silent |
| StringParse.ResolveNamedZoneChoice | src/query/functions/src/scalars/datetime.rs:238-288 | a single instant is taken; of two, the fix takes the earlier and no fix the later; a skipped hour yields a value exactly when the fix is on and the hour-later time maps to one or two instants in the session zone, taking the (earlier) one |
| StringParse.FixPrefersEarlierInstant | src/query/functions/src/scalars/datetime.rs:282-288 | for a repeated hour, the result with the fix is never later than the result without it |
| StringParse.LenientRowAsWritten | src/query/functions/src/scalars/datetime.rs:235-310 | a parse failure records the `TIMESTAMP` prefix and the parser's message with 0 pushed; a text with no zone gives the session-zone resolution (its value, or its prefixed error with 0); a row is silent exactly when the text names a zone, the fix is on, the hour is skipped and the hour-later retry overflows |
| StringParse.LenientRow | src/query/functions/src/scalars/datetime.rs:235-310 | the corrected lenient row is never silent, reports a parse failure and resolves a zone-less text as the as-written row does, and agrees with the as-written row wherever that is not silent |
| StringParse.StringToTimestampRowAsWritten | src/query/functions/src/scalars/datetime.rs:220-312 | a failing row pushes 0; only the lenient parser with the fix on can leave a row silent; with the strict parser the row pushes the parsed value, or records the prefixed parser error with 0 pushed; otherwise it is the lenient row |
| StringParse.StringToTimestampRow | src/query/functions/src/scalars/datetime.rs:220-312 | a `to_timestamp(String)` row is never silent, pushes 0 on failure, and agrees with the as-written row wherever that is not silent |
| StringParse.LenientRowShift | src/query/functions/src/scalars/datetime.rs:244-269 | as written, a silent first row leaves a one-cell column for two rows, with the second row's value at index 0 |
| StringParse.StringToTimestampColumn | src/query/functions/src/scalars/datetime.rs:205-214 | `to_timestamp(String)` has one cell per row and an error at `i` exactly when row `i` fails; `try_to_timestamp` records nothing and is null exactly at those rows |
| StringParse.DaysFromEpoch | src/query/functions/src/scalars/datetime.rs:593 | a day counted from the common era becomes one counted from 1970-01-01 (minus 719 163); errors pass through unchanged |
| StringParse.StringToDateRow | src/query/functions/src/scalars/datetime.rs:589-610 | the chosen parser's day, shifted to the epoch, is pushed exactly when that parser succeeded; otherwise "cannot parse to type `DATE`. …" is recorded with 0 |
| StringParse.StringToDateColumn | src/query/functions/src/scalars/datetime.rs:577-587 | `to_date(String)` has one cell per row with errors exactly at failing rows; `try_to_date` records nothing and is null exactly there |
| FormatParse.ContainsIff | src/query/functions/src/scalars/datetime.rs:420 | the left-to-right search finds a pattern exactly when it occurs at some index |
| FormatParse.AnyContains | src/query/functions/src/scalars/datetime.rs:418-420 | `any` over the patterns holds exactly when some pattern is contained |
| FormatParse.ParseTz | src/query/functions/src/scalars/datetime.rs:417-420 | `parse_tz` holds exactly when the format contains one of the six directives |
| FormatParse.ParseTzIff | src/query/functions/src/scalars/datetime.rs:417-420 | `parse_tz` holds exactly when one of `%Z %z %:z %::z %:::z %#z` occurs in the format at some index |
| FormatParse.DirectiveSetsParseTz | src/query/functions/src/scalars/datetime.rs:417-420 | a format with any of the six directives anywhere in it has `parse_tz` set |
| FormatParse.NoZoneLetterNoParseTz | src/query/functions/src/scalars/datetime.rs:417-420 | a format without `z` or `Z` never has `parse_tz` set |
| FormatParse.EpochDefaultsAsWritten | src/query/functions/src/scalars/datetime.rs:430-452 | a set timestamp leaves the fields unchanged; otherwise a missing year becomes 1970 with halves 19 and 70 (overwriting a parsed half), unset fields below the year get month 1, day 1, hour 0, minute 0 and second 0, and every component ends up with a value |
| FormatParse.EpochDefaultsAsWrittenOverwritesYear | src/query/functions/src/scalars/datetime.rs:431-435 | a parsed two-digit year 24 is replaced by 70, so an already-set field is overwritten |
| FormatParse.FillBelowYear | src/query/functions/src/scalars/datetime.rs:436-451 | the defaults below the year only fill unset fields, with month 1, day 1, both hour halves 0 when neither was parsed, minute 0 and second 0, and leave the year fields, the timestamp and the offset alone |
| FormatParse.EpochDefaults | src/query/functions/src/scalars/datetime.rs:430-452 | the corrected backfill only fills unset fields, leaves a set timestamp alone, sets year 1970 (19, 70) only when no part of the year was parsed, fills the same values below the year, completes every component, and agrees with the as-written backfill whenever the year or both of its halves are unset |
| FormatParse.EpochDefaultsIdempotent | src/query/functions/src/scalars/datetime.rs:430-452 | backfilling twice equals backfilling once, for both backfills |
| FormatParse.EpochDefaultsKeepComplete | src/query/functions/src/scalars/datetime.rs:430-452 | a date-time with every component parsed (some part of the year, month, day, an hour half, minute, second) is not changed by the corrected backfill, nor by the as-written one when the year itself was parsed |
| FormatParse.WithDefaultOffset | src/query/functions/src/scalars/datetime.rs:455 | a missing offset becomes 0 (UTC), a parsed one is kept, and nothing else changes |
| FormatParse.Parsed.constructor | src/query/functions/src/scalars/datetime.rs:424-427 | the `Parsed` holds the fields the parser set |
| FormatParse.Parsed.BackfillBelowYear | src/query/functions/src/scalars/datetime.rs:436-451 | month and day become 1, both hour halves 0 when neither was parsed, minute and second 0, each only when unset, in place |
| FormatParse.Parsed.BackfillAsWritten | src/query/functions/src/scalars/datetime.rs:430-452 | the in-place backfill as written leaves the as-written default fields |
| FormatParse.Parsed.Backfill | src/query/functions/src/scalars/datetime.rs:430-452 | the corrected in-place backfill leaves the corrected default fields |
| FormatParse.Parsed.DefaultOffset | src/query/functions/src/scalars/datetime.rs:455 | `get_or_insert(0)` on the offset, nothing else changed |
| FormatParse.FormatTimestampAsWritten | src/query/functions/src/scalars/datetime.rs:402-485 | `string_to_format_timestamp` as written: the result asks for null exactly when the format is empty, and is then `(0, true)` |
| FormatParse.FormatTimestamp | src/query/functions/src/scalars/datetime.rs:402-485 | the corrected parse (corrected epoch defaults): null exactly for an empty format, and equal to the as-written parse except on the ignore-remainder path for a parse that set a half of the year but not the year |
| FormatParse.FormatTimestampAsWrittenReadsYear70 | src/query/functions/src/scalars/datetime.rs:423-470 | `%y-%m-%d` ignoring the remainder with two-digit year 24: as written the local time handed on has the year 1970, the corrected parse hands on 24 |
| FormatParse.ZoneDirectiveIgnoresSessionZone | src/query/functions/src/scalars/datetime.rs:454-459 | with a zone directive the as-written result does not depend on the session zone's resolution |
| FormatParse.NoDirectiveIgnoresTextZone | src/query/functions/src/scalars/datetime.rs:460-485 | without a zone directive the as-written result does not depend on any offset or instant read from the text |
| FormatParse.TimestampFieldTakenAsIs | src/query/functions/src/scalars/datetime.rs:428-459 | a parsed timestamp reaches `to_datetime` with no default filled in |
| FormatParse.StringToFormatTimestampAsWritten | src/query/functions/src/scalars/datetime.rs:402-485 | loading a `Parsed`, backfilling it in place as the source does and defaulting its offset gives the result of `FormatTimestampAsWritten` |
| FormatParse.ToTimestampFormatRow | src/query/functions/src/scalars/datetime.rs:315-334 | an empty format gives null with no error; a failure records the parse's own message with null pushed; a successful parse pushes its timestamp, or null when the parse asked for null; nothing else fails |
| FormatParse.TryToTimestampFormatRow | src/query/functions/src/scalars/datetime.rs:336-355 | a `try_to_timestamp(String, format)` row always pushes a cell and never records an error |
| FormatParse.TryToTimestampFormatIsErrorToNull | src/query/functions/src/scalars/datetime.rs:336-355 | the `try_to_timestamp(String, format)` closure equals the plain closure with errors turned to null |
| FormatParse.ToDateFormatRow | src/query/functions/src/scalars/datetime.rs:357-378 | an empty format gives null; a parsed day is shifted to the epoch; a parse failure records its error with null pushed |
| FormatParse.TryToDateFormatRow | src/query/functions/src/scalars/datetime.rs:380-399 | a `try_to_date(String, format)` row always pushes a cell and never records an error |
| FormatParse.TryToDateFormatIsErrorToNull | src/query/functions/src/scalars/datetime.rs:380-399 | the `try_to_date(String, format)` closure equals the plain closure with errors turned to null |
| FormatParse.ToTimestampFormatColumn | src/query/functions/src/scalars/datetime.rs:315-334 | over a column: one cell per row, null exactly where the format is empty or parsing failed, and an error exactly where parsing failed |
| Diff.DiffDaysAgreesWithMinus | src/query/functions/src/scalars/datetime.rs:1167-1176 | with a day evaluator counting from its first argument to its second, `diff_days(a, b)` equals `a − b` on any two Dates whose difference fits `i32` |
| Diff.DiffFirstArgumentIsEnd | src/query/functions/src/scalars/datetime.rs:1072-1223 | the first SQL argument reaches the evaluator as the end: for an evaluator sensitive to argument order, the row equals `eval(second, first)` and differs from `eval(first, second)` |
| RealTime.Yesterday | src/query/functions/src/scalars/datetime.rs:1333-1337 | `yesterday` is one day before `today` and fits `i32` |
| RealTime.Tomorrow | src/query/functions/src/scalars/datetime.rs:1339-1343 | `tomorrow` is one day after `today` and fits `i32` |
| RealTime.NeighboursAgreeWithArithmetic | src/query/functions/src/scalars/datetime.rs:1327-1343 | away from the range ends, they equal `today() − 1` and `today() + 1`, are two days apart, and tomorrow of yesterday is today |
| WeekStart.StartOfWeekDateRow | src/query/functions/src/scalars/datetime.rs:1841-1871 | mode 0 uses the Sunday rounder and any other mode the Monday one; a rounder error is recorded as "cannot parse to type `Date`. …" with 0 pushed |
| WeekStart.StartOfWeekModeDispatch | src/query/functions/src/scalars/datetime.rs:1845-1869 | where the rounders disagree, mode 0 differs from every other mode, and all non-zero modes agree |
| WeekStart.StartOfWeekTimestampRow | src/query/functions/src/scalars/datetime.rs:1872-1882 | a `to_start_of_week(Timestamp, mode)` row is the value of one of the two rounders |
| WeekStart.StartOfWeekTimestampModeDispatch | src/query/functions/src/scalars/datetime.rs:1872-1882 | on timestamps, mode 0 gives the Sunday rounder's value and every other mode the Monday rounder's |

## Left out

- The time-zone database, the text parsers and formatters, and the `date_helper` evaluators are not part of this model. Their results are row inputs: offsets, `Single`/`Ambiguous`/`None` outcomes, parsed fields, days and instants.
- `types/date.rs` and `types/timestamp.rs` are not part of this model. The model takes the databend values of the constants they define:
  - `DATE_MIN = -354285` and `DATE_MAX = 2932896`;
  - `TIMESTAMP_MIN = -30610224000000000` and `TIMESTAMP_MAX = 253402300799999999`;
  - `MICROS_PER_SEC`, `MICROS_PER_MILLI` and `EPOCH_DAYS_FROM_CE = 719163`.
- `EvalContext::set_error` is not part of this model. It is modelled as a map from row index to message, where a later error at the same index replaces an earlier one. The real sink keeps a bitmap and the first message, and it skips rows that the input validity bitmap marks null; the model records an error at every failing row, nullable or not.
- The registry is not modelled: registration, aliases, function properties, the nullable wrappers, and the passing of constant columns.
- `now` is not modelled because it reads the session clock. `today` is an input to `yesterday`/`tomorrow`.
- `months_between` is not modelled because it returns a floating-point value.
- Other functions in the file are not modelled: `to_string`/`date_format`, `timestamp_to_date`, the `to_<component>` number extractors, and the rounder functions other than `to_start_of_week`. They are thin wrappers over the foreign formatters and `date_helper`, outside the core modelled here.
- `src/query/service/src/servers/http/v1/session/refresh_handler.rs` (an HTTP handler) and `src/common/arrow/src/arrow/util/lexical.rs` (a wrapper over a number-formatting library) are not part of this model.
- ArithFamily.ArithRow: does not model the `i64` overflow of `7 * delta`, of `delta * 3`, or of negating `i64::MIN`. The scaled delta is exact here.
- PlusMinus.PlusDomain: computes `ln + rn` and `lm + rm` exactly. The source adds them in `i64` without a check. A wrapped sum is not modelled.
- PlusMinus.MinusDomainAsWritten: likewise computes `ln − rn` and `lm − rm` exactly rather than in unchecked `i64`.
- ConvertTimezone.ConvertTimezoneRow: takes the two offsets as exact integers. The source subtracts them in `i32` before widening, which cannot overflow for real offsets.
- ConvertTimezone.Masked: a validity bitmap shorter than the current output length counts as "not masked". The source would panic there. The column lemma assumes a bitmap of the column's length.
- The domain rules of the `try_` forms wrap their domain in a nullable domain (`has_null`), or fall back to `Full`; that wrapper is not modelled. The value part they share with the plain form is (`NumberToDateDomainSound` covers the clamped domain of `try_to_date`).
- NumberCasts.DateToTimestampStrictlyIncreasing: holds only for day counts within `FitsDayMicros` (about ±292 000 years). Beyond that, the unchecked multiplication wraps and order is lost. No parser produces such a day, so the lemma states nothing there.
- NumberCasts.DateToTimestampDomainSound: requires the same bound on the domain's ends, for the same reason.
- NumberCasts.DateToTimestampDomain: promises a non-empty domain only under the same bound.
- Vectorize.Vectorize: the output builder and the error sink are sequences and a map. The arrow buffers, nullable bitmaps and typed columns are not modelled.

## Findings

| source | as written | input that shows it | evidently intended | confidence | as-written member | corrected member |
|---|---|---|---|---|---|---|
| src/query/functions/src/scalars/datetime.rs:131-138 | the Int64 domain lift maps the two ends through the magnitude-dependent cast | domain [31 535 999 999, 31 536 000 000]: the minimum casts to about 3.15·10¹⁶, the maximum to about 3.15·10¹³ | claim a domain only when both ends fall in one magnitude class, else `MayThrow` | not executed | NumberCasts.NumberToTimestampDomainAsWrittenUnsound | NumberCasts.NumberToTimestampDomainSound |
| src/query/functions/src/scalars/datetime.rs:121-125 | the seconds and milliseconds branches are not clamped | n = −31 535 999 999 gives −31 535 999 999 000 000 < `TIMESTAMP_MIN` | every cast result a valid Timestamp | not executed | NumberCasts.Int64ToTimestampBelowMin | NumberCasts.Int64ToTimestampClamped |
| src/query/functions/src/scalars/datetime.rs:1694-1697 | the "minus" domain rule is `[ln − rn, lm − rm]` | lhs = [10, 10], rhs = [0, 5] claims [10, 5], but 10 − 0 = 10 | `[ln − rm, lm − rn]`, as in the Date − Date rule | not executed | PlusMinus.MinusDomainAsWrittenUnsound | PlusMinus.MinusDomainSound |
| src/query/functions/src/scalars/datetime.rs:1656 | the plus/minus evaluators add or subtract in `i64` without a check before clamping | `TIMESTAMP_MAX + i64::MAX` wraps (release) to a negative sum and clamps to `TIMESTAMP_MIN`; a debug build panics | saturate at the end the exact sum lies beyond | not executed | PlusMinus.EvaluatorsAsWrittenWrap | PlusMinus.TimestampPlus |
| src/query/functions/src/scalars/datetime.rs:431-435 | a missing `year` sets `year_div_100` and `year_mod_100` too, even when one was parsed | format `%y-%m-%d` ignoring the remainder, text `24-05-01`: `year_mod_100` 24 becomes 70, giving 1970 | fill the year only when neither it nor a half of it was parsed | not executed | FormatParse.FormatTimestampAsWrittenReadsYear70 | FormatParse.EpochDefaults |
| src/query/functions/src/scalars/datetime.rs:244-269 | with the DST fix on, an hour added to a skipped local time that overflows the calendar leaves the row with no value and no error | a text naming a zone, in a skipped hour within an hour of the calendar's end; the following row's value then lands at this row's index | record a "cannot map" error and push 0, like the no-fix path | not executed | StringParse.LenientRowShift | StringParse.StringToTimestampColumn |

=== FILE: arith_family.dfy ===
/**
 * The `add_<unit>s` / `subtract_<unit>s` family produced by one generator
 * for the eight units and both operand types. The calendar evaluators it
 * calls (years, months, days and fixed-length times, bound to the session
 * zone) are inputs: they are not part of this model.
 */
module ArithFamily {
  import opened Wrappers
  import opened Bounds
  import opened Vectorize
  import NumberCasts

  datatype Unit = Years | Quarters | Months | Weeks | Days | Hours | Minutes | Seconds

  /** Which generator instance: `add` passes the delta through, `subtract` negates it. */
  datatype ArithOp = Add | Subtract

  /** The first argument: a Date (days) or a Timestamp (microseconds). */
  datatype Operand = DateArg(days: int) | TimestampArg(micros: int)

  /** Seconds per unit handed to the fixed-length time evaluator. */
  const FACTOR_HOUR: int := 3600
  const FACTOR_MINUTE: int := 60
  const FACTOR_SECOND: int := 1

  /**
   * The calendar evaluators, already bound to the session zone:
   * years and months can fail, days and times cannot.
   */
  datatype Calendar = Calendar(
    yearsDate: (int, int) -> Result<int>,
    yearsTimestamp: (int, int) -> Result<int>,
    monthsDate: (int, int) -> Result<int>,
    monthsTimestamp: (int, int) -> Result<int>,
    daysDate: (int, int) -> int,
    daysTimestamp: (int, int) -> int,
    times: (int, int, int) -> int)

  /** `unsigned_ident!` for `add`, `signed_ident!` (negation) for `subtract`. */
  function SignedDelta(op: ArithOp, delta: int): (n: int)
    ensures op == Add ==> n == delta
    ensures op == Subtract ==> n + delta == 0
  {
    match op
    case Add => delta
    case Subtract => -delta
  }

  /** The closure body for a fallible evaluator: push the value, or record the error and push 0. */
  function Fallible(r: Result<int>): (e: Effect)
    ensures e.Emit? <==> r.Success?
    ensures r.Success? ==> e == Emit(Val(r.value))
    ensures r.Failure? ==> e == Fail(r.error, Val(0))
  {
    match r
    case Success(t) => Emit(Val(t))
    case Failure(msg) => Fail(msg, Val(0))
  }

  function YearsEval(cal: Calendar, x: Operand, n: int): Result<int>
  {
    match x
    case DateArg(d) => cal.yearsDate(d, n)
    case TimestampArg(t) => cal.yearsTimestamp(t, n)
  }

  function MonthsEval(cal: Calendar, x: Operand, n: int): Result<int>
  {
    match x
    case DateArg(d) => cal.monthsDate(d, n)
    case TimestampArg(t) => cal.monthsTimestamp(t, n)
  }

  function DaysEval(cal: Calendar, x: Operand, n: int): int
  {
    match x
    case DateArg(d) => cal.daysDate(d, n)
    case TimestampArg(t) => cal.daysTimestamp(t, n)
  }

  /** Hours, minutes and seconds work on microseconds: a Date is first read as midnight of its day. */
  function TimeBase(x: Operand): (micros: int)
    ensures x.TimestampArg? ==> micros == x.micros
    ensures x.DateArg? ==> micros == NumberCasts.DaysToMicros(x.days)
  {
    match x
    case DateArg(d) => NumberCasts.DaysToMicros(d)
    case TimestampArg(t) => t
  }

  /** One row of `<op>_<unit>s(x, delta)`. */
  function ArithRow(cal: Calendar, op: ArithOp, unit: Unit, x: Operand, delta: int): (e: Effect)
    ensures !e.Silent?
    ensures e.Fail? ==> (unit == Years || unit == Quarters || unit == Months) && e.placeholder == Val(0)
    ensures e.Emit? ==> e.cell.Val?
  {
    match unit
    case Years => Fallible(YearsEval(cal, x, SignedDelta(op, delta)))
    case Quarters => Fallible(MonthsEval(cal, x, SignedDelta(op, delta) * 3))
    case Months => Fallible(MonthsEval(cal, x, SignedDelta(op, delta)))
    case Days => Emit(Val(DaysEval(cal, x, SignedDelta(op, delta))))
    case Weeks => Emit(Val(DaysEval(cal, x, SignedDelta(op, 7 * delta))))
    case Hours => Emit(Val(cal.times(TimeBase(x), SignedDelta(op, delta), FACTOR_HOUR)))
    case Minutes => Emit(Val(cal.times(TimeBase(x), SignedDelta(op, delta), FACTOR_MINUTE)))
    case Seconds => Emit(Val(cal.times(TimeBase(x), SignedDelta(op, delta), FACTOR_SECOND)))
  }

  /** `subtract_<unit>s(x, n)` is `add_<unit>s(x, -n)` for every unit. */
  lemma SubtractIsAddNegated(cal: Calendar, unit: Unit, x: Operand, n: int)
    ensures ArithRow(cal, Subtract, unit, x, n) == ArithRow(cal, Add, unit, x, -n)
  {
    if unit == Weeks {
      assert SignedDelta(Subtract, 7 * n) == SignedDelta(Add, 7 * -n);
    }
  }

  /** A quarter is three months. */
  lemma QuartersAreThreeMonths(cal: Calendar, op: ArithOp, x: Operand, n: int)
    ensures ArithRow(cal, op, Quarters, x, n) == ArithRow(cal, op, Months, x, 3 * n)
  {
    assert SignedDelta(op, n) * 3 == SignedDelta(op, 3 * n);
  }

  /** A week is seven days. */
  lemma WeeksAreSevenDays(cal: Calendar, op: ArithOp, x: Operand, n: int)
    ensures ArithRow(cal, op, Weeks, x, n) == ArithRow(cal, op, Days, x, 7 * n)
  {
  }

  /** On a Date, the hour/minute/second variants behave as on the Timestamp of its midnight. */
  lemma DateTimeUnitsUseMidnight(cal: Calendar, op: ArithOp, unit: Unit, d: int, n: int)
    requires unit == Hours || unit == Minutes || unit == Seconds
    ensures ArithRow(cal, op, unit, DateArg(d), n) == ArithRow(cal, op, unit, TimestampArg(NumberCasts.DaysToMicros(d)), n)
  {
  }

  /** The closure of one generated function, as the vectorizer sees it. */
  function ArithKernel(cal: Calendar, op: ArithOp, unit: Unit): (nat, (Operand, int)) -> Effect
  {
    (at: nat, arg: (Operand, int)) => ArithRow(cal, op, unit, arg.0, arg.1)
  }

  /**
   * A generated function over a column: one output per row; row `i` holds
   * the evaluator's value, or 0 with its error recorded at index `i`; only
   * years, quarters and months ever record an error.
   */
  lemma ArithColumnOnePerRow(cal: Calendar, op: ArithOp, unit: Unit, args: seq<(Operand, int)>)
    ensures |Run(ArithKernel(cal, op, unit), args).output| == |args|
    ensures forall i | 0 <= i < |args| ::
              Run(ArithKernel(cal, op, unit), args).output[i] == CellOf(ArithRow(cal, op, unit, args[i].0, args[i].1))
    ensures forall i | 0 <= i < |args| ::
              (i in Run(ArithKernel(cal, op, unit), args).errors <==> ArithRow(cal, op, unit, args[i].0, args[i].1).Fail?)
    ensures unit != Years && unit != Quarters && unit != Months ==> Run(ArithKernel(cal, op, unit), args).errors == map[]
  {
    var k := ArithKernel(cal, op, unit);
    assert forall i | 0 <= i < |args| :: k(i, args[i]) == ArithRow(cal, op, unit, args[i].0, args[i].1);
    RunOnePerRow(k, args);
    if unit != Years && unit != Quarters && unit != Months {
      var b := Run(k, args);
      assert b.errors.Keys == {};
    }
  }
}

=== FILE: bounds.dfy ===
/** Option and Result, the shapes the engine's fallible steps return. */
module Wrappers {

  datatype Option<+T> = None | Some(value: T)

  datatype Result<+T> = Success(value: T) | Failure(error: string)
}

/**
 * Integer widths, the clamped ranges of Date and Timestamp, and the
 * saturating and checked operations the temporal functions are built from.
 *
 * Rust's `i32`/`i64` are modelled as mathematical integers; `InI32`/`InI64`
 * say when a value is representable, `Checked*` return `None` exactly where
 * Rust's `checked_*` do, and `WrapI32`/`WrapI64` are two's-complement wrap-around.
 */
module Bounds {
  import opened Wrappers

  const I32_MIN: int := -0x8000_0000
  const I32_MAX: int := 0x7FFF_FFFF
  const I64_MIN: int := -0x8000_0000_0000_0000
  const I64_MAX: int := 0x7FFF_FFFF_FFFF_FFFF

  /** Days since 1970-01-01 of 1000-01-01 and 9999-12-31. */
  const DATE_MIN: int := -354285
  const DATE_MAX: int := 2932896

  /** Microseconds since the epoch of 1000-01-01 00:00:00 and 9999-12-31 23:59:59.999999. */
  const TIMESTAMP_MIN: int := -30610224000000000
  const TIMESTAMP_MAX: int := 253402300799999999

  const MICROS_PER_SEC: int := 1_000_000
  const MICROS_PER_MILLI: int := 1_000

  /** Days from 0001-01-01 (day 1 of the common era) to 1970-01-01. */
  const EPOCH_DAYS_FROM_CE: int := 719_163

  /**
   * The largest day count whose midnight, moved by less than a day, is
   * still an i64 count of microseconds. Every day chrono can represent
   * (years -262143 to 262142) lies within it.
   */
  const MICRO_DAYS_MAX: int := 106_751_990

  predicate InI32(x: int) { I32_MIN <= x <= I32_MAX }
  predicate InI64(x: int) { I64_MIN <= x <= I64_MAX }

  /** A stored Date or Timestamp value: always inside its clamped range. */
  predicate IsDate(d: int) { DATE_MIN <= d <= DATE_MAX }
  predicate IsTimestamp(t: int) { TIMESTAMP_MIN <= t <= TIMESTAMP_MAX }

  /** A day count, clamped or not, whose timestamp the engine can compute without overflow. */
  predicate FitsDayMicros(d: int) { -MICRO_DAYS_MAX <= d <= MICRO_DAYS_MAX }

  /** Saturating clamp of `x` into `[lo, hi]`. */
  function Clamp(x: int, lo: int, hi: int): (r: int)
    requires lo <= hi
    ensures lo <= r <= hi
    ensures lo <= x <= hi ==> r == x
    ensures x < lo ==> r == lo
    ensures x > hi ==> r == hi
  {
    if x < lo then lo else if x > hi then hi else x
  }

  /** `clamp_date`: an i64 day count saturated into the Date range. */
  function ClampDate(days: int): (r: int)
    ensures IsDate(r) && InI32(r)
  {
    Clamp(days, DATE_MIN, DATE_MAX)
  }

  /** `clamp_timestamp`: an i64 microsecond count saturated into the Timestamp range. */
  function ClampTimestamp(micros: int): (r: int)
    ensures IsTimestamp(r) && InI64(r)
  {
    Clamp(micros, TIMESTAMP_MIN, TIMESTAMP_MAX)
  }

  /** Clamping preserves order, so the clamped image of an interval is an interval. */
  lemma ClampMonotone(x: int, y: int, lo: int, hi: int)
    requires lo <= hi && x <= y
    ensures Clamp(x, lo, hi) <= Clamp(y, lo, hi)
  {
  }

  /** `checked_sub` of a width whose range is `[lo, hi]`. */
  function CheckedSub(a: int, b: int, lo: int, hi: int): (r: Option<int>)
    ensures r.Some? <==> lo <= a - b <= hi
    ensures r.Some? ==> r.value == a - b
  {
    if lo <= a - b <= hi then Some(a - b) else None
  }

  /** `i64::checked_add`. */
  function CheckedAdd64(a: int, b: int): (r: Option<int>)
    ensures r.Some? <==> InI64(a + b)
    ensures r.Some? ==> r.value == a + b
  {
    if InI64(a + b) then Some(a + b) else None
  }

  /** `i64::checked_mul`. */
  function CheckedMul64(a: int, b: int): (r: Option<int>)
    ensures r.Some? <==> InI64(a * b)
    ensures r.Some? ==> r.value == a * b
  {
    if InI64(a * b) then Some(a * b) else None
  }

  /** Two's-complement wrap-around of an integer into i64 (Rust's `+` with overflow checks off). */
  function WrapI64(x: int): (r: int)
    ensures InI64(r)
    ensures (r - x) % 0x1_0000_0000_0000_0000 == 0
    ensures InI64(x) ==> r == x
  {
    (x - I64_MIN) % 0x1_0000_0000_0000_0000 + I64_MIN
  }

  /** Two's-complement wrap-around of an integer into i32. */
  function WrapI32(x: int): (r: int)
    ensures InI32(r)
    ensures (r - x) % 0x1_0000_0000 == 0
    ensures InI32(x) ==> r == x
  {
    (x - I32_MIN) % 0x1_0000_0000 + I32_MIN
  }
}

=== FILE: calendar_misc.dfy ===
/**
 * The `diff_<unit>s` family: two Dates or two Timestamps in, the count of
 * whole units between them out. The unit evaluators are inputs; what is
 * modelled is the order in which the SQL arguments reach them.
 */
module Diff {
  import opened Bounds
  import PlusMinus

  /**
   * One row of `diff_<unit>s(end, start)`: the first SQL argument is the
   * end, and the evaluator is called as `eval(start, end)`.
   */
  function DiffRow(eval: (int, int) -> int, first: int, second: int): (r: int)
  {
    eval(second, first)
  }

  /**
   * With a day evaluator counting from its first argument to its second,
   * `diff_days(a, b)` is `a - b`, the same as `a - b` on two Dates.
   */
  lemma DiffDaysAgreesWithMinus(a: int, b: int)
    requires InI32(a) && InI32(b) && InI32(a - b)
    ensures DiffRow((start: int, end: int) => end - start, a, b) == PlusMinus.MinusDates(a, b)
  {
  }

  /**
   * The first SQL argument reaches the evaluator as its end parameter: for
   * any evaluator whose result depends on the order of its arguments, the
   * row gives the count from the second argument to the first and not the
   * other way round.
   */
  lemma DiffFirstArgumentIsEnd(eval: (int, int) -> int, a: int, b: int)
    requires eval(a, b) != eval(b, a)
    ensures DiffRow(eval, a, b) == eval(b, a)
    ensures DiffRow(eval, a, b) != eval(a, b)
    ensures DiffRow(eval, b, a) == eval(a, b)
  {
  }
}

/**
 * `today`, `yesterday` and `tomorrow`: the current date in the session zone
 * (an input, since it reads the session clock) and its neighbours.
 */
module RealTime {
  import opened Bounds
  import PlusMinus

  /** `today_date(now, tz) - 1`, unchecked in i32. */
  function Yesterday(today: int): (d: int)
    requires IsDate(today)
    ensures InI32(d)
    ensures d < today && today - d == 1
  {
    today - 1
  }

  /** `today_date(now, tz) + 1`, unchecked in i32. */
  function Tomorrow(today: int): (d: int)
    requires IsDate(today)
    ensures InI32(d)
    ensures today < d && d - today == 1
  {
    today + 1
  }

  /**
   * Away from the ends of the Date range, yesterday and tomorrow are what
   * the saturating `today() - 1` and `today() + 1` give, and they are two days apart.
   */
  lemma NeighboursAgreeWithArithmetic(today: int)
    requires DATE_MIN < today < DATE_MAX
    ensures Yesterday(today) == PlusMinus.DateMinus(today, 1)
    ensures Tomorrow(today) == PlusMinus.DatePlus(today, 1)
    ensures Tomorrow(Yesterday(today)) == today
    ensures Tomorrow(today) - Yesterday(today) == 2
  {
  }
}

/**
 * `to_start_of_week(date_or_timestamp, mode)`: mode 0 rounds down to the
 * last Sunday, any other mode to the last Monday. The two rounders are
 * inputs; on a Date they can fail.
 */
module WeekStart {
  import opened Wrappers
  import opened Vectorize

  const DATE_ERROR_PREFIX: string := "cannot parse to type `Date`. "

  /** Which rounder a mode selects. */
  function StartsOnSunday(mode: int): bool
  {
    mode == 0
  }

  /** One row of `to_start_of_week(Date, mode)`. */
  function StartOfWeekDateRow(toSunday: int -> Result<int>, toMonday: int -> Result<int>, d: int, mode: int): (e: Effect)
    ensures !e.Silent?
    ensures e.Fail? ==> e.placeholder == Val(0)
    ensures var r := if mode == 0 then toSunday(d) else toMonday(d);
            (e.Emit? <==> r.Success?) &&
            (r.Success? ==> e == Emit(Val(r.value))) &&
            (r.Failure? ==> e == Fail(DATE_ERROR_PREFIX + r.error, Val(0)))
  {
    var r := if StartsOnSunday(mode) then toSunday(d) else toMonday(d);
    match r
    case Success(t) => Emit(Val(t))
    case Failure(msg) => Fail(DATE_ERROR_PREFIX + msg, Val(0))
  }

  /** One row of `to_start_of_week(Timestamp, mode)`; the rounders on timestamps cannot fail. */
  function StartOfWeekTimestampRow(toSunday: int -> int, toMonday: int -> int, t: int, mode: int): (r: int)
    ensures r == toSunday(t) || r == toMonday(t)
  {
    if StartsOnSunday(mode) then toSunday(t) else toMonday(t)
  }

  /**
   * Where the two rounders disagree, the row gives the Sunday one exactly
   * when the mode is 0, and every non-zero mode gives the same row.
   */
  lemma StartOfWeekModeDispatch(toSunday: int -> Result<int>, toMonday: int -> Result<int>, d: int, mode: int, other: int)
    requires toSunday(d) != toMonday(d)
    requires mode != 0 && other != 0
    ensures StartOfWeekDateRow(toSunday, toMonday, d, 0) != StartOfWeekDateRow(toSunday, toMonday, d, mode)
    ensures StartOfWeekDateRow(toSunday, toMonday, d, mode) == StartOfWeekDateRow(toSunday, toMonday, d, other)
  {
    var s := StartOfWeekDateRow(toSunday, toMonday, d, 0);
    var m := StartOfWeekDateRow(toSunday, toMonday, d, mode);
    if toSunday(d).Success? && toMonday(d).Success? {
      assert s.cell.v == toSunday(d).value;
      assert m.cell.v == toMonday(d).value;
    } else if toSunday(d).Failure? && toMonday(d).Failure? {
      assert s.message == DATE_ERROR_PREFIX + toSunday(d).error;
      assert m.message == DATE_ERROR_PREFIX + toMonday(d).error;
      assert s.message[|DATE_ERROR_PREFIX|..] == toSunday(d).error;
      assert m.message[|DATE_ERROR_PREFIX|..] == toMonday(d).error;
    }
  }

  /** The same dispatch on timestamps, for every input. */
  lemma StartOfWeekTimestampModeDispatch(toSunday: int -> int, toMonday: int -> int, t: int, mode: int)
    ensures mode == 0 ==> StartOfWeekTimestampRow(toSunday, toMonday, t, mode) == toSunday(t)
    ensures mode != 0 ==> StartOfWeekTimestampRow(toSunday, toMonday, t, mode) == toMonday(t)
  {
  }
}

=== FILE: convert_timezone.dfy ===
/**
 * `convert_timezone(target_timezone, src_timestamp)`: shift a Timestamp by
 * the difference between the target zone's and the session zone's UTC
 * offsets at that instant.
 *
 * The zone database is an input: a row carries the session zone's offset
 * at the instant and either the target zone's offset at the instant or the
 * error text of parsing the zone name.
 */
module ConvertTimezone {
  import opened Wrappers
  import opened Bounds
  import opened Vectorize
  import NumberCasts

  /** One row as the closure sees it, after the zone lookups. */
  datatype TzRow = TzRow(target: Result<int>, srcOffset: int, src: int)

  const PARSE_TARGET_PREFIX: string := "cannot parse target `timezone`. "
  const OFFSET_ERROR: string := "calc time offset error"
  const FINAL_ERROR: string := "calc final time error"

  /**
   * A row is masked out when the input carries a validity bitmap whose bit
   * at the current output position is clear.
   */
  function Masked(validity: Option<seq<bool>>, at: nat): (m: bool)
    ensures validity.None? ==> !m
    ensures validity.Some? && at < |validity.value| ==> (m <==> !validity.value[at])
  {
    validity.Some? && at < |validity.value| && !validity.value[at]
  }

  /** One row of `convert_timezone`, given the current output length `at`. */
  function ConvertTimezoneRow(validity: Option<seq<bool>>, at: nat, row: TzRow): (e: Effect)
    ensures !e.Silent?
    ensures e.Fail? ==> e.placeholder == Val(0) && !Masked(validity, at)
    ensures Masked(validity, at) ==> e == Emit(Val(0))
    ensures !Masked(validity, at) && row.target.Failure? ==>
              e == Fail(PARSE_TARGET_PREFIX + row.target.error, Val(0))
    ensures !Masked(validity, at) && row.target.Success? ==>
              (e.Emit? <==> InI64((row.target.value - row.srcOffset) * MICROS_PER_SEC)
                            && InI64(row.src + (row.target.value - row.srcOffset) * MICROS_PER_SEC))
    ensures e.Emit? && !Masked(validity, at) ==>
              e.cell == Val(row.src + (row.target.value - row.srcOffset) * MICROS_PER_SEC)
  {
    if Masked(validity, at) then Emit(Val(0))
    else
      match row.target
      case Failure(msg) => Fail(PARSE_TARGET_PREFIX + msg, Val(0))
      case Success(targetOffset) =>
        match CheckedMul64(targetOffset - row.srcOffset, MICROS_PER_SEC)
        case None => Fail(OFFSET_ERROR, Val(0))
        case Some(offset) =>
          match CheckedAdd64(row.src, offset)
          case None => Fail(FINAL_ERROR, Val(0))
          case Some(res) => Emit(Val(res))
  }

  /** Converting into the zone one is already in leaves the timestamp as it was. */
  lemma ConvertSameOffsetIsIdentity(validity: Option<seq<bool>>, at: nat, offset: int, src: int)
    requires !Masked(validity, at) && InI64(src)
    ensures ConvertTimezoneRow(validity, at, TzRow(Success(offset), offset, src)) == Emit(Val(src))
  {
  }

  /**
   * For real UTC offsets (under a day) and a valid Timestamp neither checked
   * step can fail: the only error a row can report is an unparsable zone.
   */
  lemma ConvertValidNeverOverflows(validity: Option<seq<bool>>, at: nat, row: TzRow)
    requires row.target.Success? && NumberCasts.IsUtcOffset(row.target.value)
    requires NumberCasts.IsUtcOffset(row.srcOffset) && IsTimestamp(row.src)
    ensures ConvertTimezoneRow(validity, at, row).Emit?
  {
    var d := row.target.value - row.srcOffset;
    assert -172_800 < d < 172_800;
    assert -172_800 * MICROS_PER_SEC <= d * MICROS_PER_SEC <= 172_800 * MICROS_PER_SEC;
  }

  /** Converting from zone A to zone B and back from B to A returns the original timestamp. */
  lemma ConvertRoundTrip(validity: Option<seq<bool>>, at: nat, a: int, b: int, src: int)
    requires !Masked(validity, at)
    requires NumberCasts.IsUtcOffset(a) && NumberCasts.IsUtcOffset(b) && IsTimestamp(src)
    ensures var there := ConvertTimezoneRow(validity, at, TzRow(Success(b), a, src));
            there.Emit? && there.cell.Val? &&
            ConvertTimezoneRow(validity, at, TzRow(Success(a), b, there.cell.v)) == Emit(Val(src))
  {
    var r1 := TzRow(Success(b), a, src);
    ConvertValidNeverOverflows(validity, at, r1);
    var mid := src + (b - a) * MICROS_PER_SEC;
    assert ConvertTimezoneRow(validity, at, r1) == Emit(Val(mid));
    assert -172_800 * MICROS_PER_SEC <= (a - b) * MICROS_PER_SEC <= 172_800 * MICROS_PER_SEC;
    assert mid + (a - b) * MICROS_PER_SEC == src;
  }

  /** The closure as the vectorizer sees it. */
  function ConvertKernel(validity: Option<seq<bool>>): (nat, TzRow) -> Effect
  {
    (at: nat, row: TzRow) => ConvertTimezoneRow(validity, at, row)
  }

  /**
   * Over a column with a validity bitmap of its own length: one output per
   * row, masked rows hold 0 and never record an error, and every other row
   * holds the shifted timestamp or 0 with its error at its own index.
   */
  lemma ConvertColumn(validity: Option<seq<bool>>, rows: seq<TzRow>)
    requires validity.Some? ==> |validity.value| == |rows|
    ensures |Run(ConvertKernel(validity), rows).output| == |rows|
    ensures forall i | 0 <= i < |rows| ::
              Run(ConvertKernel(validity), rows).output[i] == CellOf(ConvertTimezoneRow(validity, i, rows[i]))
    ensures forall i | 0 <= i < |rows| && validity.Some? && !validity.value[i] ::
              Run(ConvertKernel(validity), rows).output[i] == Val(0) && i !in Run(ConvertKernel(validity), rows).errors
    ensures forall i | 0 <= i < |rows| ::
              (i in Run(ConvertKernel(validity), rows).errors <==> ConvertTimezoneRow(validity, i, rows[i]).Fail?)
  {
    var k := ConvertKernel(validity);
    assert forall i | 0 <= i < |rows| :: k(i, rows[i]) == ConvertTimezoneRow(validity, i, rows[i]);
    RunOnePerRow(k, rows);
  }
}

=== FILE: domains.dfy ===
/**
 * Optimizer domains: an inclusive bound on every value a column may hold,
 * and the classification a domain rule returns for a function's output.
 */
module Domains {

  /** `SimpleDomain { min, max }`. */
  datatype SimpleDomain = SimpleDomain(min: int, max: int)

  /**
   * `FunctionDomain`: `Full` (cannot fail, no bound claimed), `MayThrow`
   * (may fail, no bound claimed) or `Domain(d)` (every output lies in `d`).
   */
  datatype FunctionDomain = Full | MayThrow | Domain(domain: SimpleDomain)

  predicate InDomain(d: SimpleDomain, v: int)
  {
    d.min <= v <= d.max
  }

  /** A domain claim is honoured by output `v`. */
  predicate Admits(fd: FunctionDomain, v: int)
  {
    fd.Domain? ==> InDomain(fd.domain, v)
  }
}

=== FILE: format_parse.dfy ===
/**
 * `to_timestamp(String, format)`, `to_date(String, format)` and their `try_`
 * forms, built on `string_to_format_timestamp`.
 *
 * The text parsers are inputs: a row carries what parsing the text against
 * its format gave on each path. What is modelled is the empty-format rule,
 * the detection of a time-zone directive in the format, the filling of
 * unset parsed fields with epoch defaults, and the choice of path.
 */
module FormatParse {
  import opened Wrappers
  import opened Vectorize
  import opened Bounds

  /** The strftime directives that make the format carry its own zone. */
  const TZ_DIRECTIVES: seq<string> := ["%Z", "%z", "%:z", "%::z", "%:::z", "%#z"]

  /** `p` occurs in `s` starting at index `i`. */
  predicate OccursAt(s: string, p: string, i: nat)
  {
    i + |p| <= |s| && s[i..i + |p|] == p
  }

  /** `str::contains`: a left-to-right search for `p` in `s`. */
  function Contains(s: string, p: string): bool
    decreases |s|
  {
    if |p| <= |s| && s[..|p|] == p then true
    else if |s| == 0 then false
    else Contains(s[1..], p)
  }

  /** An occurrence in the tail is an occurrence one index further in the whole. */
  lemma OccursInTail(s: string, p: string, i: nat)
    requires |s| > 0
    ensures OccursAt(s[1..], p, i) <==> OccursAt(s, p, i + 1)
  {
    if i + 1 + |p| <= |s| {
      assert s[1..][i..i + |p|] == s[i + 1..i + 1 + |p|];
    }
  }

  /** An occurrence at index 0 is a matching prefix. */
  lemma OccursAtStart(s: string, p: string)
    ensures OccursAt(s, p, 0) <==> |p| <= |s| && s[..|p|] == p
  {
    if |p| <= |s| {
      assert s[0..|p|] == s[..|p|];
    }
  }

  /** The search finds `p` exactly when `p` occurs somewhere in `s`. */
  lemma {:induction false} ContainsIff(s: string, p: string)
    ensures Contains(s, p) <==> exists i: nat :: OccursAt(s, p, i)
    decreases |s|
  {
    OccursAtStart(s, p);
    if |p| <= |s| && s[..|p|] == p {
      assert OccursAt(s, p, 0);
    } else if |s| == 0 {
      forall i: nat ensures !OccursAt(s, p, i) {
        if i > 0 {
          assert i + |p| > |s|;
        }
      }
    } else {
      ContainsIff(s[1..], p);
      if Contains(s[1..], p) {
        var i: nat :| OccursAt(s[1..], p, i);
        OccursInTail(s, p, i);
      } else {
        forall i: nat ensures !OccursAt(s, p, i) {
          if i > 0 {
            OccursInTail(s, p, i - 1);
          }
        }
      }
    }
  }

  /** `patterns.iter().any(|p| s.contains(p))`. */
  function AnyContains(s: string, patterns: seq<string>): (b: bool)
    ensures b <==> exists j | 0 <= j < |patterns| :: Contains(s, patterns[j])
  {
    if patterns == [] then false
    else
      var rest := AnyContains(s, patterns[1..]);
      assert forall j | 0 <= j < |patterns| - 1 :: patterns[1..][j] == patterns[j + 1];
      Contains(s, patterns[0]) || rest
  }

  /** `parse_tz`: the format names a zone or an offset. */
  function ParseTz(format: string): (b: bool)
    ensures b <==> exists j | 0 <= j < |TZ_DIRECTIVES| :: Contains(format, TZ_DIRECTIVES[j])
  {
    AnyContains(format, TZ_DIRECTIVES)
  }

  /** `parse_tz` holds exactly when one of the six directives occurs in the format. */
  lemma ParseTzIff(format: string)
    ensures ParseTz(format) <==> exists j, i: nat | 0 <= j < |TZ_DIRECTIVES| :: OccursAt(format, TZ_DIRECTIVES[j], i)
  {
    forall j | 0 <= j < |TZ_DIRECTIVES| ensures Contains(format, TZ_DIRECTIVES[j]) <==> exists i: nat :: OccursAt(format, TZ_DIRECTIVES[j], i) {
      ContainsIff(format, TZ_DIRECTIVES[j]);
    }
  }

  /** Placing any of the directives anywhere in a format turns `parse_tz` on. */
  lemma DirectiveSetsParseTz(before: string, j: nat, after: string)
    requires j < |TZ_DIRECTIVES|
    ensures ParseTz(before + TZ_DIRECTIVES[j] + after)
  {
    var f := before + TZ_DIRECTIVES[j] + after;
    assert f[|before|..|before| + |TZ_DIRECTIVES[j]|] == TZ_DIRECTIVES[j];
    assert OccursAt(f, TZ_DIRECTIVES[j], |before|);
    ParseTzIff(f);
  }

  /** Every directive ends in `z` or `Z`, so a format with neither letter leaves `parse_tz` off. */
  lemma NoZoneLetterNoParseTz(format: string)
    requires 'z' !in format && 'Z' !in format
    ensures !ParseTz(format)
  {
    ParseTzIff(format);
    forall j, i: nat | 0 <= j < |TZ_DIRECTIVES| ensures !OccursAt(format, TZ_DIRECTIVES[j], i) {
      var d := TZ_DIRECTIVES[j];
      assert d[|d| - 1] == 'z' || d[|d| - 1] == 'Z';
      if i + |d| <= |format| {
        assert format[i + |d| - 1] in format;
        assert format[i..i + |d|][|d| - 1] == format[i + |d| - 1];
      }
    }
  }

  /** The fields of a chrono `Parsed` that the ignore-remainder path reads or fills. */
  datatype Fields = Fields(
    year: Option<int>,
    yearDiv100: Option<int>,
    yearMod100: Option<int>,
    month: Option<int>,
    day: Option<int>,
    hourDiv12: Option<int>,
    hourMod12: Option<int>,
    minute: Option<int>,
    second: Option<int>,
    timestamp: Option<int>,
    offset: Option<int>)

  /** Every field set in `p` is set to the same value in `q`. */
  predicate Extends(p: Fields, q: Fields)
  {
    && (p.year.Some? ==> q.year == p.year)
    && (p.yearDiv100.Some? ==> q.yearDiv100 == p.yearDiv100)
    && (p.yearMod100.Some? ==> q.yearMod100 == p.yearMod100)
    && (p.month.Some? ==> q.month == p.month)
    && (p.day.Some? ==> q.day == p.day)
    && (p.hourDiv12.Some? ==> q.hourDiv12 == p.hourDiv12)
    && (p.hourMod12.Some? ==> q.hourMod12 == p.hourMod12)
    && (p.minute.Some? ==> q.minute == p.minute)
    && (p.second.Some? ==> q.second == p.second)
    && q.timestamp == p.timestamp
    && q.offset == p.offset
  }

  /** Every component of a wall-clock time has a value: some part of the year, month, day, an hour half, minute and second. */
  predicate Complete(p: Fields)
  {
    && (p.year.Some? || p.yearDiv100.Some? || p.yearMod100.Some?)
    && p.month.Some? && p.day.Some?
    && (p.hourDiv12.Some? || p.hourMod12.Some?)
    && p.minute.Some? && p.second.Some?
  }

  /** `field.get_or_insert(v)`. */
  function OrDefault(o: Option<int>, v: int): (r: Option<int>)
    ensures r.Some?
    ensures o.Some? ==> r == o
    ensures o.None? ==> r == Some(v)
  {
    if o.None? then Some(v) else o
  }

  /**
   * The epoch's values below the year, in each field `p` left unset: month
   * 1, day 1, hour 0 (both halves, only when neither was parsed), minute 0
   * and second 0.
   */
  predicate DefaultsBelowYear(p: Fields, q: Fields)
  {
    && (p.month.None? ==> q.month == Some(1))
    && (p.day.None? ==> q.day == Some(1))
    && (p.hourDiv12.None? && p.hourMod12.None? ==> q.hourDiv12 == Some(0) && q.hourMod12 == Some(0))
    && (p.minute.None? ==> q.minute == Some(0))
    && (p.second.None? ==> q.second == Some(0))
  }

  function FillBelowYear(p: Fields): (q: Fields)
    ensures Extends(p, q)
    ensures DefaultsBelowYear(p, q)
    ensures q.year == p.year && q.yearDiv100 == p.yearDiv100 && q.yearMod100 == p.yearMod100
  {
    var noHour := p.hourDiv12.None? && p.hourMod12.None?;
    p.(month := OrDefault(p.month, 1), day := OrDefault(p.day, 1),
       hourDiv12 := if noHour then Some(0) else p.hourDiv12,
       hourMod12 := if noHour then Some(0) else p.hourMod12,
       minute := OrDefault(p.minute, 0), second := OrDefault(p.second, 0))
  }

  /**
   * The epoch defaults as written: when no timestamp was parsed, a missing
   * year sets the year and both of its halves to 1970, 19 and 70, even
   * when a half was parsed; the other fields get their defaults below.
   */
  function EpochDefaultsAsWritten(p: Fields): (q: Fields)
    ensures p.timestamp.Some? ==> q == p
    ensures p.timestamp.None? ==> Complete(q)
    ensures p.timestamp.None? && p.year.None? ==>
              q.year == Some(1970) && q.yearDiv100 == Some(19) && q.yearMod100 == Some(70)
    ensures p.timestamp.None? ==> DefaultsBelowYear(p, q)
  {
    if p.timestamp.Some? then p
    else
      var withYear := if p.year.None? then p.(year := Some(1970), yearDiv100 := Some(19), yearMod100 := Some(70)) else p;
      FillBelowYear(withYear)
  }

  /**
   * A text parsed with `%y` sets only the two-digit year; the defaults as
   * written replace it with 70, so "24" reads as 1970 rather than 2024.
   */
  lemma EpochDefaultsAsWrittenOverwritesYear()
    ensures var p := Fields(None, None, Some(24), None, None, None, None, None, None, None, None);
            EpochDefaultsAsWritten(p).yearMod100 == Some(70) && !Extends(p, EpochDefaultsAsWritten(p))
  {
  }

  /** The epoch defaults filling only what is unset: the year only when neither it nor a half of it was parsed. */
  function EpochDefaults(p: Fields): (q: Fields)
    ensures p.timestamp.Some? ==> q == p
    ensures p.timestamp.None? ==> Complete(q)
    ensures Extends(p, q)
    ensures p.timestamp.None? && p.year.None? && p.yearDiv100.None? && p.yearMod100.None? ==>
              q.year == Some(1970) && q.yearDiv100 == Some(19) && q.yearMod100 == Some(70)
    ensures p.timestamp.None? ==> DefaultsBelowYear(p, q)
    ensures p.year.Some? || (p.yearDiv100.None? && p.yearMod100.None?) ==> q == EpochDefaultsAsWritten(p)
  {
    if p.timestamp.Some? then p
    else
      var noYear := p.year.None? && p.yearDiv100.None? && p.yearMod100.None?;
      var withYear := if noYear then p.(year := Some(1970), yearDiv100 := Some(19), yearMod100 := Some(70)) else p;
      FillBelowYear(withYear)
  }

  /** Filling the defaults twice fills nothing more. */
  lemma EpochDefaultsIdempotent(p: Fields)
    ensures EpochDefaults(EpochDefaults(p)) == EpochDefaults(p)
    ensures EpochDefaultsAsWritten(EpochDefaultsAsWritten(p)) == EpochDefaultsAsWritten(p)
  {
  }

  /** The defaults leave a fully parsed date-time untouched. */
  lemma EpochDefaultsKeepComplete(p: Fields)
    requires Complete(p)
    ensures EpochDefaults(p) == p
    ensures p.year.Some? ==> EpochDefaultsAsWritten(p) == p
  {
  }

  /** `parsed.offset.get_or_insert(0)`: with a zone directive a missing offset means UTC. */
  function WithDefaultOffset(p: Fields): (q: Fields)
    ensures q.offset.Some?
    ensures p.offset.Some? ==> q == p
    ensures p.offset.None? ==> q == p.(offset := Some(0))
  {
    if p.offset.Some? then p else p.(offset := Some(0))
  }

  /** A chrono `Parsed` under construction, updated in place. */
  class Parsed {
    var year: Option<int>
    var yearDiv100: Option<int>
    var yearMod100: Option<int>
    var month: Option<int>
    var day: Option<int>
    var hourDiv12: Option<int>
    var hourMod12: Option<int>
    var minute: Option<int>
    var second: Option<int>
    var timestamp: Option<int>
    var offset: Option<int>

    function Snapshot(): Fields
      reads this
    {
      Fields(year, yearDiv100, yearMod100, month, day, hourDiv12, hourMod12, minute, second, timestamp, offset)
    }

    /** The state `parse_and_remainder` leaves behind. */
    constructor (f: Fields)
      ensures Snapshot() == f
    {
      year, yearDiv100, yearMod100 := f.year, f.yearDiv100, f.yearMod100;
      month, day := f.month, f.day;
      hourDiv12, hourMod12 := f.hourDiv12, f.hourMod12;
      minute, second := f.minute, f.second;
      timestamp, offset := f.timestamp, f.offset;
    }

    /** The defaults below the year, filled in place. */
    method BackfillBelowYear()
      modifies this
      ensures Snapshot() == FillBelowYear(old(Snapshot()))
    {
      if month.None? {
        month := Some(1);
      }
      if day.None? {
        day := Some(1);
      }
      if hourDiv12.None? && hourMod12.None? {
        hourDiv12 := Some(0);
        hourMod12 := Some(0);
      }
      if minute.None? {
        minute := Some(0);
      }
      if second.None? {
        second := Some(0);
      }
    }

    /** The backfill as written. */
    method BackfillAsWritten()
      modifies this
      ensures Snapshot() == EpochDefaultsAsWritten(old(Snapshot()))
    {
      if timestamp.None? {
        if year.None? {
          year := Some(1970);
          yearDiv100 := Some(19);
          yearMod100 := Some(70);
        }
        BackfillBelowYear();
      }
    }

    /** The backfill that never overwrites a parsed half of the year. */
    method Backfill()
      modifies this
      ensures Snapshot() == EpochDefaults(old(Snapshot()))
    {
      if timestamp.None? {
        if year.None? && yearDiv100.None? && yearMod100.None? {
          year := Some(1970);
          yearDiv100 := Some(19);
          yearMod100 := Some(70);
        }
        BackfillBelowYear();
      }
    }

    /** `offset.get_or_insert(0)`. */
    method DefaultOffset()
      modifies this
      ensures Snapshot() == WithDefaultOffset(old(Snapshot()))
    {
      if offset.None? {
        offset := Some(0);
      }
    }
  }

  /**
   * What the parsers give for one row's text against its format:
   * - `remainder`: the fields `parse_and_remainder` sets (ignoring trailing text);
   * - `toDatetime`: `Parsed::to_datetime`, the instant of a field set with an offset;
   * - `toNaive`: `Parsed::to_naive_datetime_with_offset(0)`, a local wall-clock time;
   * - `resolveLocal`: the session-zone resolution of a local time (the DST
   *   flag already applied);
   * - `withZone`: `DateTime::parse_from_str`, the instant of a text with a zone;
   * - `naive`: `NaiveDateTime::parse_from_str`, a local wall-clock time.
   * Instants are UTC microseconds; errors are their messages.
   */
  datatype FormatInputs = FormatInputs(
    remainder: Result<Fields>,
    toDatetime: Fields -> Result<int>,
    toNaive: Fields -> Result<int>,
    resolveLocal: int -> Result<int>,
    withZone: Result<int>,
    naive: Result<int>)

  /** A local wall-clock time resolved in the session zone, as `(micros, need_null = false)`. */
  function InSessionZone(x: FormatInputs, local: Result<int>): Result<(int, bool)>
  {
    match local
    case Failure(msg) => Failure(msg)
    case Success(n) =>
      match x.resolveLocal(n)
      case Failure(msg) => Failure(msg)
      case Success(t) => Success((t, false))
  }

  function AsInstant(r: Result<int>): Result<(int, bool)>
  {
    match r
    case Failure(msg) => Failure(msg)
    case Success(t) => Success((t, false))
  }

  /**
   * `string_to_format_timestamp` as written: an empty format asks for null;
   * otherwise a format with a zone directive yields an instant of its own,
   * and one without is resolved in the session zone. On the
   * ignore-remainder path the parsed fields get the epoch defaults as
   * written, which overwrite a parsed half of the year.
   */
  function FormatTimestampAsWritten(ignoreRemainder: bool, format: string, x: FormatInputs): (r: Result<(int, bool)>)
    ensures |format| == 0 <==> r.Success? && r.value.1
    ensures |format| == 0 ==> r == Success((0, true))
  {
    if |format| == 0 then Success((0, true))
    else if ignoreRemainder then
      match x.remainder
      case Failure(msg) => Failure(msg)
      case Success(p) =>
        var q := EpochDefaultsAsWritten(p);
        if ParseTz(format) then AsInstant(x.toDatetime(WithDefaultOffset(q)))
        else InSessionZone(x, x.toNaive(q))
    else if ParseTz(format) then AsInstant(x.withZone)
    else InSessionZone(x, x.naive)
  }

  /** Whether the epoch defaults as written keep every parsed part of the year. */
  predicate KeepsParsedYear(p: Fields)
  {
    p.year.Some? || (p.yearDiv100.None? && p.yearMod100.None?)
  }

  /**
   * `string_to_format_timestamp` with the corrected epoch defaults; it
   * differs from the function as written only on the ignore-remainder path
   * for a parse that set a half of the year but not the year.
   */
  function FormatTimestamp(ignoreRemainder: bool, format: string, x: FormatInputs): (r: Result<(int, bool)>)
    ensures |format| == 0 <==> r.Success? && r.value.1
    ensures |format| == 0 ==> r == Success((0, true))
    ensures !ignoreRemainder || x.remainder.Failure? || KeepsParsedYear(x.remainder.value) ==>
              r == FormatTimestampAsWritten(ignoreRemainder, format, x)
  {
    if |format| == 0 then Success((0, true))
    else if ignoreRemainder then
      match x.remainder
      case Failure(msg) => Failure(msg)
      case Success(p) =>
        var q := EpochDefaults(p);
        if ParseTz(format) then AsInstant(x.toDatetime(WithDefaultOffset(q)))
        else InSessionZone(x, x.toNaive(q))
    else if ParseTz(format) then AsInstant(x.withZone)
    else InSessionZone(x, x.naive)
  }

  /**
   * A text parsed with `%y-%m-%d`, ignoring the remainder: as written the
   * local time handed on carries the year 1970 (two-digit year 70); the
   * corrected defaults hand on the parsed two-digit year 24.
   */
  lemma FormatTimestampAsWrittenReadsYear70(x: FormatInputs)
    requires x.remainder == Success(Fields(None, None, Some(24), Some(5), Some(1), None, None, None, None, None, None))
    ensures FormatTimestampAsWritten(true, "%y-%m-%d", x) ==
            InSessionZone(x, x.toNaive(Fields(Some(1970), Some(19), Some(70), Some(5), Some(1), Some(0), Some(0), Some(0), Some(0), None, None)))
    ensures FormatTimestamp(true, "%y-%m-%d", x) ==
            InSessionZone(x, x.toNaive(Fields(None, None, Some(24), Some(5), Some(1), Some(0), Some(0), Some(0), Some(0), None, None)))
  {
    NoZoneLetterNoParseTz("%y-%m-%d");
  }

  /** A format carrying a zone directive is never resolved in the session zone. */
  lemma ZoneDirectiveIgnoresSessionZone(ignoreRemainder: bool, format: string, x: FormatInputs, resolve: int -> Result<int>)
    requires ParseTz(format)
    ensures FormatTimestampAsWritten(ignoreRemainder, format, x) == FormatTimestampAsWritten(ignoreRemainder, format, x.(resolveLocal := resolve))
  {
  }

  /** A format without a zone directive never reads an offset or an instant from the text. */
  lemma NoDirectiveIgnoresTextZone(ignoreRemainder: bool, format: string, x: FormatInputs,
                                   toDatetime: Fields -> Result<int>, withZone: Result<int>)
    requires !ParseTz(format)
    ensures FormatTimestampAsWritten(ignoreRemainder, format, x) ==
            FormatTimestampAsWritten(ignoreRemainder, format, x.(toDatetime := toDatetime, withZone := withZone))
  {
  }

  /**
   * On the ignore-remainder path a parse that set the timestamp is taken as
   * it stands: no default reaches the field set handed on.
   */
  lemma TimestampFieldTakenAsIs(format: string, x: FormatInputs)
    requires |format| > 0 && ParseTz(format)
    requires x.remainder.Success? && x.remainder.value.timestamp.Some?
    ensures FormatTimestampAsWritten(true, format, x) == AsInstant(x.toDatetime(WithDefaultOffset(x.remainder.value)))
  {
  }

  /**
   * `string_to_format_timestamp` step by step: on the ignore-remainder path
   * the parsed fields are loaded into a `Parsed`, backfilled in place and, with a zone directive,
   * given a default offset before being resolved.
   */
  method StringToFormatTimestampAsWritten(ignoreRemainder: bool, format: string, x: FormatInputs) returns (r: Result<(int, bool)>)
    ensures r == FormatTimestampAsWritten(ignoreRemainder, format, x)
  {
    if |format| == 0 {
      return Success((0, true));
    }
    var parseTz := ParseTz(format);
    if ignoreRemainder {
      if x.remainder.Failure? {
        return Failure(x.remainder.error);
      }
      var parsed := new Parsed(x.remainder.value);
      parsed.BackfillAsWritten();
      if parseTz {
        parsed.DefaultOffset();
        r := AsInstant(x.toDatetime(parsed.Snapshot()));
      } else {
        r := InSessionZone(x, x.toNaive(parsed.Snapshot()));
      }
    } else if parseTz {
      r := AsInstant(x.withZone);
    } else {
      r := InSessionZone(x, x.naive);
    }
  }

  /** One row of `to_timestamp(String, format)`: null for an empty format, null with the error recorded on failure. */
  function ToTimestampFormatRow(ignoreRemainder: bool, format: string, x: FormatInputs): (e: Effect)
    ensures !e.Silent?
    ensures e.Fail? ==> e.placeholder == Null
    ensures |format| == 0 ==> e == Emit(Null)
    ensures e.Fail? <==> FormatTimestampAsWritten(ignoreRemainder, format, x).Failure?
    ensures e.Fail? ==> e.message == FormatTimestampAsWritten(ignoreRemainder, format, x).error
    ensures FormatTimestampAsWritten(ignoreRemainder, format, x).Success? ==>
              var (ts, needNull) := FormatTimestampAsWritten(ignoreRemainder, format, x).value;
              e == Emit(if needNull then Null else Val(ts))
  {
    match FormatTimestampAsWritten(ignoreRemainder, format, x)
    case Success((ts, needNull)) => if needNull then Emit(Null) else Emit(Val(ts))
    case Failure(msg) => Fail(msg, Null)
  }

  /** One row of `try_to_timestamp(String, format)`: the same, with the error dropped. */
  function TryToTimestampFormatRow(ignoreRemainder: bool, format: string, x: FormatInputs): (e: Effect)
    ensures e.Emit?
  {
    match FormatTimestampAsWritten(ignoreRemainder, format, x)
    case Success((ts, needNull)) => if needNull then Emit(Null) else Emit(Val(ts))
    case Failure(_) => Emit(Null)
  }

  /** The `try_` closure is the plain one with its error turned into null. */
  lemma TryToTimestampFormatIsErrorToNull(ignoreRemainder: bool, format: string, x: FormatInputs)
    ensures TryToTimestampFormatRow(ignoreRemainder, format, x) == ErrorToNull(ToTimestampFormatRow(ignoreRemainder, format, x))
  {
  }

  /** One row of `to_date(String, format)`: `parsed` is the day chrono parsed, counted from day 1 of the era. */
  function ToDateFormatRow(format: string, parsed: Result<int>): (e: Effect)
    ensures !e.Silent?
    ensures |format| == 0 ==> e == Emit(Null)
    ensures e.Fail? <==> |format| > 0 && parsed.Failure?
    ensures e.Fail? ==> e == Fail(parsed.error, Null)
    ensures |format| > 0 && parsed.Success? ==> e == Emit(Val(parsed.value - EPOCH_DAYS_FROM_CE))
  {
    if |format| == 0 then Emit(Null)
    else
      match parsed
      case Success(d) => Emit(Val(d - EPOCH_DAYS_FROM_CE))
      case Failure(msg) => Fail(msg, Null)
  }

  function TryToDateFormatRow(format: string, parsed: Result<int>): (e: Effect)
    ensures e.Emit?
  {
    if |format| == 0 then Emit(Null)
    else
      match parsed
      case Success(d) => Emit(Val(d - EPOCH_DAYS_FROM_CE))
      case Failure(_) => Emit(Null)
  }

  lemma TryToDateFormatIsErrorToNull(format: string, parsed: Result<int>)
    ensures TryToDateFormatRow(format, parsed) == ErrorToNull(ToDateFormatRow(format, parsed))
  {
  }

  function ToTimestampFormatKernel(ignoreRemainder: bool): (nat, (string, FormatInputs)) -> Effect
  {
    (at: nat, r: (string, FormatInputs)) => ToTimestampFormatRow(ignoreRemainder, r.0, r.1)
  }

  /**
   * `to_timestamp(String, format)` over a column: one cell per row, null
   * exactly where the format is empty or parsing failed, and an error
   * recorded exactly where parsing failed.
   */
  lemma ToTimestampFormatColumn(ignoreRemainder: bool, rows: seq<(string, FormatInputs)>)
    ensures |Run(ToTimestampFormatKernel(ignoreRemainder), rows).output| == |rows|
    ensures forall i | 0 <= i < |rows| ::
              (Run(ToTimestampFormatKernel(ignoreRemainder), rows).output[i] == Null
               <==> |rows[i].0| == 0 || FormatTimestampAsWritten(ignoreRemainder, rows[i].0, rows[i].1).Failure?)
    ensures forall i | 0 <= i < |rows| ::
              (i in Run(ToTimestampFormatKernel(ignoreRemainder), rows).errors
               <==> FormatTimestampAsWritten(ignoreRemainder, rows[i].0, rows[i].1).Failure?)
  {
    var k := ToTimestampFormatKernel(ignoreRemainder);
    assert forall i | 0 <= i < |rows| :: k(i, rows[i]) == ToTimestampFormatRow(ignoreRemainder, rows[i].0, rows[i].1);
    RunOnePerRow(k, rows);
  }
}

=== FILE: number_casts.dfy ===
/**
 * Casts into Date and Timestamp: `to_timestamp(Int64)`, `to_date(Int64)`
 * and `to_timestamp(Date)`, with the domain rules the optimizer uses for them.
 */
module NumberCasts {
  import opened Wrappers
  import opened Bounds
  import opened Domains

  /** Below this magnitude an Int64 is read as seconds. */
  const SECONDS_LIMIT: int := 31_536_000_000
  /** Below this magnitude (and not below the previous one) it is read as milliseconds. */
  const MILLIS_LIMIT: int := 31_536_000_000_000

  /**
   * The interval of the number line an Int64 falls in, from -2 (large
   * negative, already microseconds) through 0 (seconds) to 2 (large positive).
   * `int64_to_timestamp` is monotone inside each region, not across them.
   */
  function Region(n: int): (k: int)
    ensures -2 <= k <= 2
    ensures k == 0 <==> -SECONDS_LIMIT < n < SECONDS_LIMIT
  {
    if n <= -MILLIS_LIMIT then -2
    else if n <= -SECONDS_LIMIT then -1
    else if n < SECONDS_LIMIT then 0
    else if n < MILLIS_LIMIT then 1
    else 2
  }

  lemma RegionMonotone(a: int, b: int)
    requires a <= b
    ensures Region(a) <= Region(b)
  {
  }

  /**
   * `int64_to_timestamp`: a number read as seconds, milliseconds or
   * microseconds by its magnitude. Neither scaling overflows i64 and the
   * sign is kept.
   */
  function Int64ToTimestamp(n: int): (r: int)
    requires InI64(n)
    ensures InI64(r)
    ensures r < 0 <==> n < 0
    ensures r == 0 <==> n == 0
  {
    if -SECONDS_LIMIT < n < SECONDS_LIMIT then n * MICROS_PER_SEC
    else if -MILLIS_LIMIT < n < MILLIS_LIMIT then n * MICROS_PER_MILLI
    else ClampTimestamp(n)
  }

  /** Inside one region the cast preserves order. */
  lemma Int64ToTimestampMonotoneInRegion(a: int, b: int)
    requires InI64(a) && InI64(b) && a <= b && Region(a) == Region(b)
    ensures Int64ToTimestamp(a) <= Int64ToTimestamp(b)
  {
    if Region(a) == 2 || Region(a) == -2 {
      ClampMonotone(a, b, TIMESTAMP_MIN, TIMESTAMP_MAX);
    }
  }

  /**
   * As written, the seconds branch does not clamp: a negative number of
   * seconds before 1000-01-01 gives a Timestamp below `TIMESTAMP_MIN`.
   */
  lemma Int64ToTimestampBelowMin()
    ensures Int64ToTimestamp(-31_535_999_999) == -31_535_999_999_000_000
    ensures !IsTimestamp(Int64ToTimestamp(-31_535_999_999))
  {
  }

  /**
   * The cast with its result clamped: always a valid Timestamp, and equal to
   * the cast as written wherever that one is already in range.
   */
  function Int64ToTimestampClamped(n: int): (r: int)
    requires InI64(n)
    ensures IsTimestamp(r)
    ensures IsTimestamp(Int64ToTimestamp(n)) ==> r == Int64ToTimestamp(n)
    ensures r < 0 <==> n < 0
  {
    ClampTimestamp(Int64ToTimestamp(n))
  }

  lemma Int64ToTimestampClampedMonotoneInRegion(a: int, b: int)
    requires InI64(a) && InI64(b) && a <= b && Region(a) == Region(b)
    ensures Int64ToTimestampClamped(a) <= Int64ToTimestampClamped(b)
  {
    Int64ToTimestampMonotoneInRegion(a, b);
    ClampMonotone(Int64ToTimestamp(a), Int64ToTimestamp(b), TIMESTAMP_MIN, TIMESTAMP_MAX);
  }

  /** `int64_domain_to_timestamp_domain` as written: always claims `[f(min), f(max)]`. */
  function Int64DomainToTimestampDomain(d: SimpleDomain): (r: Option<SimpleDomain>)
    requires InI64(d.min) && InI64(d.max)
    ensures r.Some?
    ensures r.value.min < 0 <==> d.min < 0
  {
    Some(SimpleDomain(Int64ToTimestamp(d.min), Int64ToTimestamp(d.max)))
  }

  /**
   * The lifted domain is not a bound: across the seconds/milliseconds
   * boundary a smaller input gives a far larger timestamp.
   */
  lemma Int64DomainToTimestampDomainUnsound()
    ensures var d := SimpleDomain(31_535_999_999, 31_536_000_000);
            InDomain(d, 31_535_999_999) &&
            !InDomain(Int64DomainToTimestampDomain(d).value, Int64ToTimestamp(31_535_999_999))
  {
  }

  /**
   * The domain lift that claims a bound only when both ends fall in the same
   * region; otherwise the rule falls back to `MayThrow`.
   */
  function Int64DomainToTimestampDomainChecked(d: SimpleDomain): (r: Option<SimpleDomain>)
    requires InI64(d.min) && InI64(d.max)
    ensures r.Some? <==> Region(d.min) == Region(d.max)
    ensures r.Some? ==> IsTimestamp(r.value.min) && IsTimestamp(r.value.max)
  {
    if Region(d.min) == Region(d.max) then
      Some(SimpleDomain(Int64ToTimestampClamped(d.min), Int64ToTimestampClamped(d.max)))
    else
      None
  }

  /**
   * The domain rule of `to_timestamp(Int64)` as written: the lift never
   * fails, so the rule always claims a domain.
   */
  function NumberToTimestampDomainAsWritten(d: SimpleDomain): (fd: FunctionDomain)
    requires InI64(d.min) && InI64(d.max)
    ensures fd.Domain?
    ensures fd.domain.min < 0 <==> d.min < 0
  {
    Domain(Int64DomainToTimestampDomain(d).value)
  }

  /**
   * The rule as written claims a domain that excludes the value the evaluator
   * pushes for an input inside the argument domain.
   */
  lemma NumberToTimestampDomainAsWrittenUnsound()
    ensures var d := SimpleDomain(31_535_999_999, 31_536_000_000);
            InDomain(d, 31_535_999_999) &&
            !Admits(NumberToTimestampDomainAsWritten(d), Int64ToTimestamp(31_535_999_999))
  {
    Int64DomainToTimestampDomainUnsound();
  }

  /**
   * The domain rule of `to_timestamp(Int64)`, corrected: a domain only when
   * both ends share a magnitude class, `MayThrow` otherwise; it agrees with
   * the rule as written whenever it claims a domain whose ends cast into range.
   */
  function NumberToTimestampDomain(d: SimpleDomain): (fd: FunctionDomain)
    requires InI64(d.min) && InI64(d.max)
    ensures fd.Domain? || fd.MayThrow?
    ensures fd.Domain? <==> Region(d.min) == Region(d.max)
    ensures fd.Domain? && IsTimestamp(Int64ToTimestamp(d.min)) && IsTimestamp(Int64ToTimestamp(d.max)) ==>
              fd == NumberToTimestampDomainAsWritten(d)
  {
    match Int64DomainToTimestampDomainChecked(d)
    case Some(td) => Domain(td)
    case None => MayThrow
  }

  /** Every input inside the argument domain is cast to a value inside the claimed domain. */
  lemma NumberToTimestampDomainSound(d: SimpleDomain, n: int)
    requires InI64(d.min) && InI64(d.max)
    requires InDomain(d, n)
    ensures Admits(NumberToTimestampDomain(d), Int64ToTimestampClamped(n))
  {
    if Region(d.min) == Region(d.max) {
      RegionMonotone(d.min, n);
      RegionMonotone(n, d.max);
      Int64ToTimestampClampedMonotoneInRegion(d.min, n);
      Int64ToTimestampClampedMonotoneInRegion(n, d.max);
    }
  }

  /**
   * `SimpleDomain::overflow_cast_with_minmax(DATE_MIN, DATE_MAX)`: both ends
   * clamped into the Date range, and whether either of them had to move.
   */
  function OverflowCastToDate(d: SimpleDomain): (r: (SimpleDomain, bool))
    ensures IsDate(r.0.min) && IsDate(r.0.max)
    ensures !r.1 <==> IsDate(d.min) && IsDate(d.max)
    ensures !r.1 ==> r.0 == d
  {
    var lo := ClampDate(d.min);
    var hi := ClampDate(d.max);
    (SimpleDomain(lo, hi), lo != d.min || hi != d.max)
  }

  /** The domain rule of `to_date(Int64)`. */
  function NumberToDateDomain(d: SimpleDomain): (fd: FunctionDomain)
    ensures fd.Domain? || fd.MayThrow?
    ensures fd.Domain? <==> IsDate(d.min) && IsDate(d.max)
  {
    var (cast, overflowing) := OverflowCastToDate(d);
    if overflowing then MayThrow else Domain(cast)
  }

  /**
   * `to_date(Int64)` pushes `clamp_date(val)`; both its rule and the clamped
   * domain that `try_to_date` reports bound that value for every input in
   * the argument domain.
   */
  lemma NumberToDateDomainSound(d: SimpleDomain, v: int)
    requires InDomain(d, v)
    ensures Admits(NumberToDateDomain(d), ClampDate(v))
    ensures InDomain(OverflowCastToDate(d).0, ClampDate(v))
  {
    ClampMonotone(d.min, v, DATE_MIN, DATE_MAX);
    ClampMonotone(v, d.max, DATE_MIN, DATE_MAX);
  }

  /** A UTC offset in seconds as chrono's `FixedOffset` admits it. */
  predicate IsUtcOffset(secs: int)
  {
    -86_400 < secs < 86_400
  }

  const MICROS_PER_DAY: int := 24 * 3600 * MICROS_PER_SEC

  /** `(val as i64) * 24 * 3600 * MICROS_PER_SEC`: midnight UTC of a day count, in microseconds. */
  function DaysToMicros(d: int): (r: int)
    ensures FitsDayMicros(d) ==> InI64(r)
    ensures r / MICROS_PER_DAY == d && r % MICROS_PER_DAY == 0
  {
    d * MICROS_PER_DAY
  }

  /**
   * `calc_date_to_timestamp` on any i32 day count, clamped or not: midnight
   * UTC of the day, less the session zone's offset at the epoch
   * (`epochOffsetSecs`, the zone lookup being an input). The multiplication
   * and the subtraction are unchecked i64 arithmetic; they wrap only for a
   * day count no parser produces.
   */
  function DateToTimestamp(d: int, epochOffsetSecs: int): (r: int)
    requires InI32(d) && IsUtcOffset(epochOffsetSecs)
    ensures InI64(r)
    ensures FitsDayMicros(d) ==> r == DaysToMicros(d) - epochOffsetSecs * MICROS_PER_SEC
    ensures FitsDayMicros(d) ==> DaysToMicros(d) - MICROS_PER_DAY < r < DaysToMicros(d) + MICROS_PER_DAY
    ensures (r - (DaysToMicros(d) - epochOffsetSecs * MICROS_PER_SEC)) % 0x1_0000_0000_0000_0000 == 0
  {
    WrapI64(WrapI64(DaysToMicros(d)) - epochOffsetSecs * MICROS_PER_SEC)
  }

  /** Later days give later timestamps, a whole day apart per day, for every day chrono can represent. */
  lemma DateToTimestampStrictlyIncreasing(a: int, b: int, epochOffsetSecs: int)
    requires InI32(a) && InI32(b) && IsUtcOffset(epochOffsetSecs) && a < b
    requires FitsDayMicros(a) && FitsDayMicros(b)
    ensures DateToTimestamp(a, epochOffsetSecs) + (b - a) * MICROS_PER_DAY == DateToTimestamp(b, epochOffsetSecs)
    ensures DateToTimestamp(a, epochOffsetSecs) < DateToTimestamp(b, epochOffsetSecs)
  {
    assert DaysToMicros(b) - DaysToMicros(a) == (b - a) * MICROS_PER_DAY;
  }

  /** The domain rule of `to_timestamp(Date)` and `try_to_timestamp(Date)`: both ends mapped through the cast. */
  function DateToTimestampDomain(d: SimpleDomain, epochOffsetSecs: int): (fd: FunctionDomain)
    requires InI32(d.min) && InI32(d.max) && IsUtcOffset(epochOffsetSecs)
    ensures fd.Domain?
    ensures fd.domain.min == DateToTimestamp(d.min, epochOffsetSecs)
    ensures fd.domain.max == DateToTimestamp(d.max, epochOffsetSecs)
    ensures d.min <= d.max && FitsDayMicros(d.min) && FitsDayMicros(d.max) ==> fd.domain.min <= fd.domain.max
  {
    Domain(SimpleDomain(DateToTimestamp(d.min, epochOffsetSecs), DateToTimestamp(d.max, epochOffsetSecs)))
  }

  /** Every day of a domain within chrono's calendar casts into the claimed domain. */
  lemma DateToTimestampDomainSound(d: SimpleDomain, v: int, epochOffsetSecs: int)
    requires InI32(d.min) && InI32(d.max) && IsUtcOffset(epochOffsetSecs)
    requires FitsDayMicros(d.min) && FitsDayMicros(d.max)
    requires InDomain(d, v)
    ensures Admits(DateToTimestampDomain(d, epochOffsetSecs), DateToTimestamp(v, epochOffsetSecs))
  {
    if d.min < v {
      DateToTimestampStrictlyIncreasing(d.min, v, epochOffsetSecs);
    }
    if v < d.max {
      DateToTimestampStrictlyIncreasing(v, d.max, epochOffsetSecs);
    }
  }
}

=== FILE: plus_minus.dfy ===
/**
 * `Date ± Int64`, `Timestamp ± Int64`, `Date − Date` and
 * `Timestamp − Timestamp`: the saturating evaluators and their domain rules.
 *
 * The rules for `Date`/`Timestamp ± Int64` are written once over the clamp
 * range `[lo, hi]` (the Date range or the Timestamp range); the rules for
 * `Date − Date`/`Timestamp − Timestamp` once over the integer width
 * `[lo, hi]` of their result (i32 or i64).
 */
module PlusMinus {
  import opened Wrappers
  import opened Bounds
  import opened Domains

  /**
   * The four evaluators as written compute `a ± b` in i64 without a check
   * before clamping; with overflow checks off (a release build) the sum
   * wraps around first.
   */
  function DatePlusAsWritten(a: int, b: int): (r: int)
    requires InI32(a) && InI64(b)
    ensures IsDate(r)
    ensures InI64(a + b) ==> r == ClampDate(a + b)
  {
    ClampDate(WrapI64(a + b))
  }

  function DateMinusAsWritten(a: int, b: int): (r: int)
    requires InI32(a) && InI64(b)
    ensures IsDate(r)
    ensures InI64(a - b) ==> r == ClampDate(a - b)
  {
    ClampDate(WrapI64(a - b))
  }

  function TimestampPlusAsWritten(a: int, b: int): (r: int)
    requires InI64(a) && InI64(b)
    ensures IsTimestamp(r)
    ensures InI64(a + b) ==> r == ClampTimestamp(a + b)
  {
    ClampTimestamp(WrapI64(a + b))
  }

  function TimestampMinusAsWritten(a: int, b: int): (r: int)
    requires InI64(a) && InI64(b)
    ensures IsTimestamp(r)
    ensures InI64(a - b) ==> r == ClampTimestamp(a - b)
  {
    ClampTimestamp(WrapI64(a - b))
  }

  /**
   * A far-too-large delta wraps past the other end of i64, so the result
   * saturates at the wrong end of the range: adding the largest Int64 to the
   * last Date or Timestamp gives the first one, and subtracting it from the
   * first gives the last.
   */
  lemma EvaluatorsAsWrittenWrap()
    ensures DatePlusAsWritten(DATE_MAX, I64_MAX) == DATE_MIN
    ensures TimestampPlusAsWritten(TIMESTAMP_MAX, I64_MAX) == TIMESTAMP_MIN
    ensures DateMinusAsWritten(DATE_MIN, I64_MAX) == DATE_MAX
    ensures TimestampMinusAsWritten(TIMESTAMP_MIN, I64_MAX) == TIMESTAMP_MAX
  {
    assert WrapI64(DATE_MAX + I64_MAX) == DATE_MAX + I64_MAX - 0x1_0000_0000_0000_0000;
    assert WrapI64(TIMESTAMP_MAX + I64_MAX) == TIMESTAMP_MAX + I64_MAX - 0x1_0000_0000_0000_0000;
    assert WrapI64(DATE_MIN - I64_MAX) == DATE_MIN - I64_MAX + 0x1_0000_0000_0000_0000;
    assert WrapI64(TIMESTAMP_MIN - I64_MAX) == TIMESTAMP_MIN - I64_MAX + 0x1_0000_0000_0000_0000;
  }

  /** `plus(Date, Int64)`, saturating: the exact sum clamped into the Date range. */
  function DatePlus(a: int, b: int): (r: int)
    requires InI32(a) && InI64(b)
    ensures IsDate(r)
    ensures IsDate(a + b) ==> r == a + b
    ensures a + b < DATE_MIN ==> r == DATE_MIN
    ensures a + b > DATE_MAX ==> r == DATE_MAX
    ensures InI64(a + b) ==> r == DatePlusAsWritten(a, b)
  {
    ClampDate(a + b)
  }

  /** `minus(Date, Int64)`, saturating. */
  function DateMinus(a: int, b: int): (r: int)
    requires InI32(a) && InI64(b)
    ensures IsDate(r)
    ensures IsDate(a - b) ==> r == a - b
    ensures a - b < DATE_MIN ==> r == DATE_MIN
    ensures a - b > DATE_MAX ==> r == DATE_MAX
    ensures InI64(a - b) ==> r == DateMinusAsWritten(a, b)
  {
    ClampDate(a - b)
  }

  /** `plus(Timestamp, Int64)`, saturating. */
  function TimestampPlus(a: int, b: int): (r: int)
    requires InI64(a) && InI64(b)
    ensures IsTimestamp(r)
    ensures IsTimestamp(a + b) ==> r == a + b
    ensures a + b < TIMESTAMP_MIN ==> r == TIMESTAMP_MIN
    ensures a + b > TIMESTAMP_MAX ==> r == TIMESTAMP_MAX
    ensures InI64(a + b) ==> r == TimestampPlusAsWritten(a, b)
  {
    ClampTimestamp(a + b)
  }

  /** `minus(Timestamp, Int64)`, saturating. */
  function TimestampMinus(a: int, b: int): (r: int)
    requires InI64(a) && InI64(b)
    ensures IsTimestamp(r)
    ensures IsTimestamp(a - b) ==> r == a - b
    ensures a - b < TIMESTAMP_MIN ==> r == TIMESTAMP_MIN
    ensures a - b > TIMESTAMP_MAX ==> r == TIMESTAMP_MAX
    ensures InI64(a - b) ==> r == TimestampMinusAsWritten(a, b)
  {
    ClampTimestamp(a - b)
  }

  /** Subtracting `b` is adding `-b`, on both operand types (within i64). */
  lemma MinusIsPlusNegated(a: int, b: int)
    requires InI64(b) && b != I64_MIN
    ensures InI32(a) ==> DateMinus(a, b) == DatePlus(a, -b)
    ensures InI64(a) ==> TimestampMinus(a, b) == TimestampPlus(a, -b)
  {
  }

  /** Saturating addition never moves against its operands' order. */
  lemma PlusMonotone(a: int, a': int, b: int, b': int, lo: int, hi: int)
    requires lo <= hi && a <= a' && b <= b'
    ensures Clamp(a + b, lo, hi) <= Clamp(a' + b', lo, hi)
  {
    ClampMonotone(a + b, a' + b', lo, hi);
  }

  /** The "plus" domain rule: `[clamp(ln + rn), clamp(lm + rm)]`. */
  function PlusDomain(lhs: SimpleDomain, rhs: SimpleDomain, lo: int, hi: int): (d: SimpleDomain)
    requires lo <= hi
    ensures lo <= d.min <= hi && lo <= d.max <= hi
    ensures lhs.min <= lhs.max && rhs.min <= rhs.max ==> d.min <= d.max
  {
    SimpleDomain(Clamp(lhs.min + rhs.min, lo, hi), Clamp(lhs.max + rhs.max, lo, hi))
  }

  /** Every sum of arguments drawn from the argument domains lands inside the "plus" domain. */
  lemma PlusDomainSound(lhs: SimpleDomain, rhs: SimpleDomain, lo: int, hi: int, a: int, b: int)
    requires lo <= hi && InDomain(lhs, a) && InDomain(rhs, b)
    ensures InDomain(PlusDomain(lhs, rhs, lo, hi), Clamp(a + b, lo, hi))
  {
    PlusMonotone(lhs.min, a, rhs.min, b, lo, hi);
    PlusMonotone(a, lhs.max, b, rhs.max, lo, hi);
  }

  /** The "minus" domain rule as written: `[clamp(ln - rn), clamp(lm - rm)]`. */
  function MinusDomainAsWritten(lhs: SimpleDomain, rhs: SimpleDomain, lo: int, hi: int): (d: SimpleDomain)
    requires lo <= hi
    ensures lo <= d.min <= hi && lo <= d.max <= hi
  {
    SimpleDomain(Clamp(lhs.min - rhs.min, lo, hi), Clamp(lhs.max - rhs.max, lo, hi))
  }

  /**
   * With `lhs = [10, 10]` and `rhs = [0, 5]` the rule as written claims
   * `[10, 5]`, which excludes `10 - 0` (and is empty).
   */
  lemma MinusDomainAsWrittenUnsound(lo: int, hi: int)
    requires lo <= 0 && 10 <= hi
    ensures var d := MinusDomainAsWritten(SimpleDomain(10, 10), SimpleDomain(0, 5), lo, hi);
            d == SimpleDomain(10, 5) && !InDomain(d, Clamp(10 - 0, lo, hi))
  {
  }

  /** The "minus" domain rule with the subtrahend's bounds swapped: `[clamp(ln - rm), clamp(lm - rn)]`. */
  function MinusDomain(lhs: SimpleDomain, rhs: SimpleDomain, lo: int, hi: int): (d: SimpleDomain)
    requires lo <= hi
    ensures lo <= d.min <= hi && lo <= d.max <= hi
    ensures lhs.min <= lhs.max && rhs.min <= rhs.max ==> d.min <= d.max
    ensures rhs.min == rhs.max ==> d == MinusDomainAsWritten(lhs, rhs, lo, hi)
  {
    SimpleDomain(Clamp(lhs.min - rhs.max, lo, hi), Clamp(lhs.max - rhs.min, lo, hi))
  }

  lemma MinusDomainSound(lhs: SimpleDomain, rhs: SimpleDomain, lo: int, hi: int, a: int, b: int)
    requires lo <= hi && InDomain(lhs, a) && InDomain(rhs, b)
    ensures InDomain(MinusDomain(lhs, rhs, lo, hi), Clamp(a - b, lo, hi))
  {
    ClampMonotone(lhs.min - rhs.max, a - b, lo, hi);
    ClampMonotone(a - b, lhs.max - rhs.min, lo, hi);
  }

  /**
   * `minus(Date, Date)`: `a - b` in unchecked i32, on any two Dates,
   * clamped or not; two valid Dates never overflow it.
   */
  function MinusDates(a: int, b: int): (r: int)
    requires InI32(a) && InI32(b)
    ensures InI32(r)
    ensures InI32(a - b) ==> r + b == a
    ensures IsDate(a) && IsDate(b) ==> r + b == a
    ensures (r - (a - b)) % 0x1_0000_0000 == 0
  {
    WrapI32(a - b)
  }

  /**
   * `minus(Timestamp, Timestamp)`: `a - b` in unchecked i64, on any two
   * Timestamps; two valid Timestamps never overflow it.
   */
  function MinusTimestamps(a: int, b: int): (r: int)
    requires InI64(a) && InI64(b)
    ensures InI64(r)
    ensures InI64(a - b) ==> r + b == a
    ensures IsTimestamp(a) && IsTimestamp(b) ==> r + b == a
    ensures (r - (a - b)) % 0x1_0000_0000_0000_0000 == 0
  {
    WrapI64(a - b)
  }

  /**
   * The rule of `minus(Date, Date)` (width i32) and
   * `minus(Timestamp, Timestamp)` (width i64): `[ln - rm, lm - rn]` with
   * `checked_sub`, falling back to `Full` when either end overflows.
   */
  function DifferenceDomain(lhs: SimpleDomain, rhs: SimpleDomain, lo: int, hi: int): (fd: FunctionDomain)
    ensures fd.Domain? || fd.Full?
    ensures fd.Full? <==> !(lo <= lhs.min - rhs.max <= hi && lo <= lhs.max - rhs.min <= hi)
  {
    match (CheckedSub(lhs.min, rhs.max, lo, hi), CheckedSub(lhs.max, rhs.min, lo, hi))
    case (Some(mn), Some(mx)) => Domain(SimpleDomain(mn, mx))
    case _ => Full
  }

  /**
   * A claimed difference domain bounds every difference of arguments from
   * the argument domains, and then the unchecked `a - b` cannot overflow.
   */
  lemma DifferenceDomainSound(lhs: SimpleDomain, rhs: SimpleDomain, lo: int, hi: int, a: int, b: int)
    requires InDomain(lhs, a) && InDomain(rhs, b)
    ensures Admits(DifferenceDomain(lhs, rhs, lo, hi), a - b)
    ensures DifferenceDomain(lhs, rhs, lo, hi).Domain? ==> lo <= a - b <= hi
  {
  }
}

=== FILE: string_parse.dfy ===
/**
 * `to_timestamp(String)`, `to_date(String)` and their `try_` forms.
 *
 * The text parsers (the strict parser, the lenient free-form parser) and the
 * zone database are inputs: a row carries what they returned. What is
 * modelled is the choice among those outcomes, in particular how the lenient
 * path resolves a local time that a zone maps to one, two or no instants.
 */
module StringParse {
  import opened Wrappers
  import opened Vectorize
  import opened Bounds

  const TIMESTAMP_PREFIX: string := "cannot parse to type `TIMESTAMP`. "
  const DATE_PREFIX: string := "cannot parse to type `DATE`. "

  /**
   * What mapping a local wall-clock time into a zone gave: one instant, two
   * (a repeated hour: the earlier and the later), or none (a skipped hour).
   * Instants are UTC microseconds.
   */
  datatype LocalResult = Single(t: int) | Ambiguous(earliest: int, latest: int) | NoneLocal

  /**
   * The lenient parser's outcome for one string, with the zone lookups it
   * leads to:
   * - `inZone`: present when the text named a zone; the local time mapped into it;
   * - `retry`: the local time one hour later mapped into the session zone,
   *   absent when adding the hour overflows the calendar;
   * - `local`: the session-zone resolution used when the text named no zone;
   * - `noMapText`, `retryNoMapText`: the two "cannot map" messages, which
   *   print the local times.
   */
  datatype Lenient = Lenient(
    inZone: Option<LocalResult>,
    retry: Option<LocalResult>,
    local: Result<int>,
    noMapText: string,
    retryNoMapText: string)

  /** One string row: what the strict parser and the lenient parser give for it. */
  datatype TimestampText = TimestampText(strict: Result<int>, lenient: Result<Lenient>)

  /** A parser result turned into a row: the value, or the prefixed error and 0. */
  function Parsed(r: Result<int>, prefix: string): (e: Effect)
    ensures e.Emit? <==> r.Success?
    ensures r.Success? ==> e == Emit(Val(r.value))
    ensures r.Failure? ==> e == Fail(prefix + r.error, Val(0))
  {
    match r
    case Success(t) => Emit(Val(t))
    case Failure(msg) => Fail(prefix + msg, Val(0))
  }

  /**
   * The lenient path's resolution when the text named a zone, as written:
   * when the hour is skipped and the fix is on, the hour-later retry is
   * attempted only if the addition does not overflow, and nothing at all
   * happens to the row otherwise.
   */
  function ResolveNamedZoneAsWritten(fix: bool, l: Lenient): (e: Effect)
    requires l.inZone.Some?
    ensures e.Fail? ==> e.placeholder == Val(0)
    ensures e.Silent? <==> fix && l.inZone.value.NoneLocal? && l.retry.None?
  {
    match l.inZone.value
    case Single(t) => Emit(Val(t))
    case Ambiguous(early, late) => if fix then Emit(Val(early)) else Emit(Val(late))
    case NoneLocal =>
      if fix then
        match l.retry
        case Some(Single(t)) => Emit(Val(t))
        case Some(Ambiguous(early, _)) => Emit(Val(early))
        case Some(NoneLocal) => Fail(TIMESTAMP_PREFIX + l.retryNoMapText, Val(0))
        case None => Silent
      else
        Fail(TIMESTAMP_PREFIX + l.noMapText, Val(0))
  }

  /**
   * The resolution with the overflowing retry reported as the skipped hour
   * it is (the message of the no-fix path): every row now yields one value.
   */
  function ResolveNamedZone(fix: bool, l: Lenient): (e: Effect)
    requires l.inZone.Some?
    ensures !e.Silent?
    ensures e.Fail? ==> e.placeholder == Val(0)
    ensures !ResolveNamedZoneAsWritten(fix, l).Silent? ==> e == ResolveNamedZoneAsWritten(fix, l)
  {
    if fix && l.inZone.value.NoneLocal? && l.retry.None? then
      Fail(TIMESTAMP_PREFIX + l.noMapText, Val(0))
    else
      ResolveNamedZoneAsWritten(fix, l)
  }

  /**
   * The DST choice: a unique instant is taken as is; of a repeated hour the
   * fix takes the earlier instant and its absence the later; a skipped hour
   * is an error unless the fix finds the hour-later time in the session zone.
   */
  lemma ResolveNamedZoneChoice(fix: bool, l: Lenient)
    requires l.inZone.Some?
    ensures l.inZone.value.Single? ==> ResolveNamedZone(fix, l) == Emit(Val(l.inZone.value.t))
    ensures l.inZone.value.Ambiguous? ==>
              ResolveNamedZone(fix, l) == Emit(Val(if fix then l.inZone.value.earliest else l.inZone.value.latest))
    ensures l.inZone.value.NoneLocal? ==>
              (ResolveNamedZone(fix, l).Emit? <==> fix && l.retry.Some? && !l.retry.value.NoneLocal?)
    ensures l.inZone.value.NoneLocal? && fix && l.retry.Some? && l.retry.value.Single? ==>
              ResolveNamedZone(fix, l) == Emit(Val(l.retry.value.t))
    ensures l.inZone.value.NoneLocal? && fix && l.retry.Some? && l.retry.value.Ambiguous? ==>
              ResolveNamedZone(fix, l) == Emit(Val(l.retry.value.earliest))
  {
  }

  /** Of a repeated hour (earlier before later), the fix never gives a later instant than its absence. */
  lemma FixPrefersEarlierInstant(l: Lenient)
    requires l.inZone.Some? && l.inZone.value.Ambiguous?
    requires l.inZone.value.earliest <= l.inZone.value.latest
    ensures ResolveNamedZone(true, l).Emit? && ResolveNamedZone(false, l).Emit?
    ensures ResolveNamedZone(true, l).cell.Val? && ResolveNamedZone(false, l).cell.Val?
    ensures ResolveNamedZone(true, l).cell.v <= ResolveNamedZone(false, l).cell.v
  {
  }

  /** The lenient path of one row as written. */
  function LenientRowAsWritten(fix: bool, r: Result<Lenient>): (e: Effect)
    ensures e.Fail? ==> e.placeholder == Val(0)
    ensures e.Silent? <==>
              (r.Success? && r.value.inZone.Some? && fix && r.value.inZone.value.NoneLocal? && r.value.retry.None?)
    ensures r.Failure? ==> e == Fail(TIMESTAMP_PREFIX + r.error, Val(0))
    ensures r.Success? && r.value.inZone.None? ==> e == Parsed(r.value.local, TIMESTAMP_PREFIX)
  {
    match r
    case Failure(msg) => Fail(TIMESTAMP_PREFIX + msg, Val(0))
    case Success(l) =>
      if l.inZone.Some? then ResolveNamedZoneAsWritten(fix, l) else Parsed(l.local, TIMESTAMP_PREFIX)
  }

  /** The lenient path of one row, every row yielding one value. */
  function LenientRow(fix: bool, r: Result<Lenient>): (e: Effect)
    ensures !e.Silent?
    ensures e.Fail? ==> e.placeholder == Val(0)
    ensures !LenientRowAsWritten(fix, r).Silent? ==> e == LenientRowAsWritten(fix, r)
    ensures r.Failure? ==> e == Fail(TIMESTAMP_PREFIX + r.error, Val(0))
    ensures r.Success? && r.value.inZone.None? ==> e == Parsed(r.value.local, TIMESTAMP_PREFIX)
  {
    match r
    case Failure(msg) => Fail(TIMESTAMP_PREFIX + msg, Val(0))
    case Success(l) =>
      if l.inZone.Some? then ResolveNamedZone(fix, l) else Parsed(l.local, TIMESTAMP_PREFIX)
  }

  /** One row of `to_timestamp(String)` as written: the strict parser, or the lenient one. */
  function StringToTimestampRowAsWritten(strictParser: bool, fix: bool, x: TimestampText): (e: Effect)
    ensures e.Fail? ==> e.placeholder == Val(0)
    ensures e.Silent? ==> !strictParser && fix
    ensures strictParser ==> (e.Emit? <==> x.strict.Success?)
    ensures strictParser ==> e == Parsed(x.strict, TIMESTAMP_PREFIX)
    ensures !strictParser ==> e == LenientRowAsWritten(fix, x.lenient)
  {
    if strictParser then Parsed(x.strict, TIMESTAMP_PREFIX) else LenientRowAsWritten(fix, x.lenient)
  }

  /** One row of `to_timestamp(String)` with the lenient path corrected. */
  function StringToTimestampRow(strictParser: bool, fix: bool, x: TimestampText): (e: Effect)
    ensures !e.Silent?
    ensures e.Fail? ==> e.placeholder == Val(0)
    ensures !StringToTimestampRowAsWritten(strictParser, fix, x).Silent? ==>
              e == StringToTimestampRowAsWritten(strictParser, fix, x)
  {
    if strictParser then Parsed(x.strict, TIMESTAMP_PREFIX) else LenientRow(fix, x.lenient)
  }

  function StringToTimestampKernelAsWritten(strictParser: bool, fix: bool): (nat, TimestampText) -> Effect
  {
    (at: nat, x: TimestampText) => StringToTimestampRowAsWritten(strictParser, fix, x)
  }

  function StringToTimestampKernel(strictParser: bool, fix: bool): (nat, TimestampText) -> Effect
  {
    (at: nat, x: TimestampText) => StringToTimestampRow(strictParser, fix, x)
  }

  /** A text naming a zone in whose skipped hour it falls, one hour before the end of the calendar. */
  function SkippedAtEndOfTime(): TimestampText
  {
    TimestampText(Failure("unused"), Success(Lenient(Some(NoneLocal), None, Failure("unused"), "", "")))
  }

  function UnambiguousText(t: int): TimestampText
  {
    TimestampText(Failure("unused"), Success(Lenient(Some(Single(t)), None, Failure("unused"), "", "")))
  }

  /**
   * As written, with the fix on, a first row whose retry overflows leaves
   * no value and no error: the column comes out one short, the second row's
   * value lands at index 0, and an error of the second row would be
   * recorded against index 0.
   */
  lemma LenientRowShift(t: int)
    ensures var b := Run(StringToTimestampKernelAsWritten(false, true), [SkippedAtEndOfTime(), UnambiguousText(t)]);
            b.output == [Val(t)] && b.errors == map[]
  {
    var k := StringToTimestampKernelAsWritten(false, true);
    var rows := [SkippedAtEndOfTime(), UnambiguousText(t)];
    assert rows[..1] == [SkippedAtEndOfTime()];
    assert rows[..1][..0] == [];
    assert Run(k, rows[..1]) == Batch([], map[]);
  }

  /**
   * With the corrected resolution `to_timestamp(String)` yields one value per
   * row, the error (if any) at the row's own index, and `try_to_timestamp`
   * turns exactly the failing rows into null without recording anything.
   */
  lemma StringToTimestampColumn(strictParser: bool, fix: bool, xs: seq<TimestampText>)
    ensures |Run(StringToTimestampKernel(strictParser, fix), xs).output| == |xs|
    ensures forall i | 0 <= i < |xs| ::
              (i in Run(StringToTimestampKernel(strictParser, fix), xs).errors <==> StringToTimestampRow(strictParser, fix, xs[i]).Fail?)
    ensures Run(TryRow(StringToTimestampKernel(strictParser, fix)), xs).errors == map[]
    ensures |Run(TryRow(StringToTimestampKernel(strictParser, fix)), xs).output| == |xs|
    ensures forall i | 0 <= i < |xs| ::
              (Run(TryRow(StringToTimestampKernel(strictParser, fix)), xs).output[i] == Null
               <==> StringToTimestampRow(strictParser, fix, xs[i]).Fail?)
  {
    var k := StringToTimestampKernel(strictParser, fix);
    assert forall i | 0 <= i < |xs| :: k(i, xs[i]) == StringToTimestampRow(strictParser, fix, xs[i]);
    RunOnePerRow(k, xs);
    TryRunRecordsNothing(k, xs);
  }

  /** One date string: the strict parser's and the lenient parser's day, counted from day 1 of the era. */
  datatype DateText = DateText(strict: Result<int>, lenient: Result<int>)

  /** Days from the common era to days from 1970-01-01. */
  function DaysFromEpoch(r: Result<int>): (s: Result<int>)
    ensures s.Success? <==> r.Success?
    ensures r.Success? ==> s.value + EPOCH_DAYS_FROM_CE == r.value
    ensures r.Failure? ==> s.error == r.error
  {
    match r
    case Success(d) => Success(d - EPOCH_DAYS_FROM_CE)
    case Failure(msg) => Failure(msg)
  }

  /** One row of `to_date(String)`. */
  function StringToDateRow(strictParser: bool, x: DateText): (e: Effect)
    ensures !e.Silent?
    ensures e.Emit? <==> (if strictParser then x.strict else x.lenient).Success?
    ensures e.Emit? ==> e.cell.Val? && e.cell.v + EPOCH_DAYS_FROM_CE == (if strictParser then x.strict else x.lenient).value
    ensures e.Fail? ==> e == Fail(DATE_PREFIX + (if strictParser then x.strict else x.lenient).error, Val(0))
  {
    Parsed(DaysFromEpoch(if strictParser then x.strict else x.lenient), DATE_PREFIX)
  }

  function StringToDateKernel(strictParser: bool): (nat, DateText) -> Effect
  {
    (at: nat, x: DateText) => StringToDateRow(strictParser, x)
  }

  /** `to_date(String)` over a column, and `try_to_date` nulling exactly the failing rows. */
  lemma StringToDateColumn(strictParser: bool, xs: seq<DateText>)
    ensures |Run(StringToDateKernel(strictParser), xs).output| == |xs|
    ensures forall i | 0 <= i < |xs| ::
              (i in Run(StringToDateKernel(strictParser), xs).errors <==> StringToDateRow(strictParser, xs[i]).Fail?)
    ensures Run(TryRow(StringToDateKernel(strictParser)), xs).errors == map[]
    ensures |Run(TryRow(StringToDateKernel(strictParser)), xs).output| == |xs|
    ensures forall i | 0 <= i < |xs| ::
              (Run(TryRow(StringToDateKernel(strictParser)), xs).output[i] == Null
               <==> StringToDateRow(strictParser, xs[i]).Fail?)
  {
    var k := StringToDateKernel(strictParser);
    assert forall i | 0 <= i < |xs| :: k(i, xs[i]) == StringToDateRow(strictParser, xs[i]);
    RunOnePerRow(k, xs);
    TryRunRecordsNothing(k, xs);
  }
}

=== FILE: vectorize.dfy ===
/**
 * The per-row output discipline of the vectorized evaluators.
 *
 * Every row closure receives the output builder and the evaluation context.
 * It either pushes one value, or records an error at index `output.len()`
 * and then pushes one placeholder (`0`, or null for a nullable result). A row
 * closure is modelled as a pure function from the current output length and
 * the row's input to an `Effect`; `Run` is the state a whole column leaves
 * behind, and `Vectorize` is the loop that drives a builder and an error
 * sink row by row.
 */
module Vectorize {

  /** One output slot: a value, or null in a nullable output. */
  datatype Cell = Val(v: int) | Null

  /**
   * What one row closure does: push one cell; record an error at the current
   * output length and push a placeholder; or (only on one faulty path of the
   * lenient timestamp parser) do nothing at all.
   */
  datatype Effect = Emit(cell: Cell) | Fail(message: string, placeholder: Cell) | Silent

  /** The output column and the error sink, keyed by row index. */
  datatype Batch = Batch(output: seq<Cell>, errors: map<nat, string>)

  /** The cell a non-silent effect leaves in the output. */
  function CellOf(e: Effect): (c: Cell)
    requires !e.Silent?
    ensures e.Emit? ==> c == e.cell
    ensures e.Fail? ==> c == e.placeholder
  {
    if e.Emit? then e.cell else e.placeholder
  }

  /** The state after one row. */
  function Step(b: Batch, e: Effect): (r: Batch)
    ensures e.Silent? ==> r == b
    ensures !e.Silent? ==> r.output == b.output + [CellOf(e)]
    ensures e.Fail? ==> r.errors == b.errors[|b.output| := e.message]
    ensures !e.Fail? ==> r.errors == b.errors
  {
    match e
    case Emit(c) => Batch(b.output + [c], b.errors)
    case Fail(m, c) => Batch(b.output + [c], b.errors[|b.output| := m])
    case Silent => b
  }

  /** The state after a whole column, rows taken in index order from an empty builder. */
  function Run<I>(row: (nat, I) -> Effect, inputs: seq<I>): Batch
    decreases |inputs|
  {
    if inputs == [] then Batch([], map[])
    else
      var prev := Run(row, inputs[..|inputs| - 1]);
      Step(prev, row(|prev.output|, inputs[|inputs| - 1]))
  }

  /** No row of the column takes the silent path (evaluated at its own row index). */
  ghost predicate NeverSilent<I>(row: (nat, I) -> Effect, inputs: seq<I>)
  {
    forall i | 0 <= i < |inputs| :: !row(i, inputs[i]).Silent?
  }

  /**
   * One output per row: when no row is silent, row `i` is evaluated with
   * `output.len() == i`, leaves exactly its own cell at index `i`, and an
   * error is recorded at index `i` exactly when row `i` failed.
   */
  lemma {:induction false} RunOnePerRow<I>(row: (nat, I) -> Effect, inputs: seq<I>)
    requires NeverSilent(row, inputs)
    ensures |Run(row, inputs).output| == |inputs|
    ensures forall i | 0 <= i < |inputs| :: Run(row, inputs).output[i] == CellOf(row(i, inputs[i]))
    ensures forall i | 0 <= i < |inputs| :: (i in Run(row, inputs).errors <==> row(i, inputs[i]).Fail?)
    ensures forall i | 0 <= i < |inputs| && row(i, inputs[i]).Fail? ::
              Run(row, inputs).errors[i] == row(i, inputs[i]).message
    ensures forall k | k in Run(row, inputs).errors :: k < |inputs|
  {
    if inputs != [] {
      var n := |inputs| - 1;
      var init := inputs[..n];
      assert NeverSilent(row, init) by {
        forall i | 0 <= i < |init| ensures !row(i, init[i]).Silent? {
          assert init[i] == inputs[i];
        }
      }
      RunOnePerRow(row, init);
      forall i | 0 <= i < n ensures init[i] == inputs[i] { }
    }
  }

  /** The error sink of the evaluation context: one message per failing row. */
  class ErrorSink {
    var errors: map<nat, string>

    constructor ()
      ensures errors == map[]
    {
      errors := map[];
    }

    /** `ctx.set_error(row, msg)`. */
    method SetError(row: nat, msg: string)
      modifies this
      ensures errors == old(errors)[row := msg]
    {
      errors := errors[row := msg];
    }
  }

  /** The append-only output builder of one column. */
  class Builder {
    var data: seq<Cell>

    constructor ()
      ensures data == []
    {
      data := [];
    }

    method Push(c: Cell)
      modifies this
      ensures data == old(data) + [c]
    {
      data := data + [c];
    }

    method Len() returns (n: nat)
      ensures n == |data|
    {
      n := |data|;
    }
  }

  /** What a row closure does to the builder and the context for a given effect. */
  method ApplyRow(output: Builder, ctx: ErrorSink, e: Effect)
    modifies output, ctx
    ensures Batch(output.data, ctx.errors) == Step(Batch(old(output.data), old(ctx.errors)), e)
  {
    match e
    case Emit(c) =>
      output.Push(c);
    case Fail(m, c) =>
      var at := output.Len();
      ctx.SetError(at, m);
      output.Push(c);
    case Silent =>
  }

  /**
   * `vectorize_with_builder_*`: run a row closure over a column in index
   * order, passing it the current output length, and return the column and
   * the errors it recorded.
   */
  method Vectorize<I>(row: (nat, I) -> Effect, inputs: seq<I>) returns (output: seq<Cell>, errors: map<nat, string>)
    ensures Batch(output, errors) == Run(row, inputs)
  {
    var builder := new Builder();
    var ctx := new ErrorSink();
    var i := 0;
    while i < |inputs|
      invariant 0 <= i <= |inputs|
      invariant Batch(builder.data, ctx.errors) == Run(row, inputs[..i])
    {
      assert inputs[..i + 1][..i] == inputs[..i];
      var at := builder.Len();
      ApplyRow(builder, ctx, row(at, inputs[i]));
      i := i + 1;
    }
    assert inputs[..i] == inputs;
    output, errors := builder.data, ctx.errors;
  }

  /**
   * `error_to_null` and the `try_` closures: an error becomes a null output
   * and nothing is recorded.
   */
  function ErrorToNull(e: Effect): (r: Effect)
    ensures !r.Fail?
    ensures r.Silent? <==> e.Silent?
    ensures e.Fail? ==> r == Emit(Null)
    ensures !e.Fail? ==> r == e
  {
    if e.Fail? then Emit(Null) else e
  }

  /** The `try_` form of a row closure. */
  function TryRow<I>(row: (nat, I) -> Effect): (nat, I) -> Effect
  {
    (at: nat, x: I) => ErrorToNull(row(at, x))
  }

  /**
   * A `try_` column records no error, has one cell per row, and a row is
   * null exactly where the plain form failed or itself produced null.
   */
  lemma TryRunRecordsNothing<I>(row: (nat, I) -> Effect, inputs: seq<I>)
    requires NeverSilent(row, inputs)
    ensures Run(TryRow(row), inputs).errors == map[]
    ensures |Run(TryRow(row), inputs).output| == |inputs|
    ensures forall i | 0 <= i < |inputs| ::
              (Run(TryRow(row), inputs).output[i] == Null <==> (row(i, inputs[i]).Fail? || row(i, inputs[i]) == Emit(Null)))
    ensures forall i | 0 <= i < |inputs| && row(i, inputs[i]).Emit? ::
              Run(TryRow(row), inputs).output[i] == row(i, inputs[i]).cell
  {
    var t := TryRow(row);
    assert NeverSilent(t, inputs) by {
      forall i | 0 <= i < |inputs| ensures !t(i, inputs[i]).Silent? {
        assert t(i, inputs[i]) == ErrorToNull(row(i, inputs[i]));
      }
    }
    RunOnePerRow(t, inputs);
    var b := Run(t, inputs);
    forall k | 0 <= k < |inputs| ensures k !in b.errors {
      assert t(k, inputs[k]) == ErrorToNull(row(k, inputs[k]));
    }
    assert b.errors.Keys == {};
    forall i | 0 <= i < |inputs|
      ensures b.output[i] == Null <==> (row(i, inputs[i]).Fail? || row(i, inputs[i]) == Emit(Null))
    {
      assert t(i, inputs[i]) == ErrorToNull(row(i, inputs[i]));
    }
    forall i | 0 <= i < |inputs| && row(i, inputs[i]).Emit?
      ensures b.output[i] == row(i, inputs[i]).cell
    {
      assert t(i, inputs[i]) == ErrorToNull(row(i, inputs[i]));
    }
  }
}
